=== FILE: README.md ===
# Device monitoring collector — a Dafny model

The system is a small collector with an administrator dashboard. An Express/Mongoose
backend keeps three collections:

- **devices**: one record per `deviceId`, with a capture interval in milliseconds
  that must lie in [5000, 300000];
- **events**: unlock, lock, screen_on, app_open, app_close and screenshot events;
- **screenshots**: base64 images with metadata.

The dashboard is a React Native app. It lists the stored screenshots page by page,
lets the administrator change a device's capture interval in seconds, and shows
events with an icon per type.

This project models the parts of that system that decide things:

- the device routes: the registration check, the registration upsert, reading and
  setting the interval, and the cascading delete;
- the event routes: append, the filtered listing, and per-type statistics;
- the screenshot routes: upload, the filtered listing, bulk delete, reading one
  record or its image, and single delete;
- the Device, Event and Screenshot schemas;
- the dashboard's pure logic: interval-form validation, gallery paging, the page
  strip, the "Showing" line, the delete-a-page step and the event icons.

The database is an immutable `Store` of three sequences. Each route is a pure
function from the store and the request to the new store and the reply. `Valid`
states what the routes keep true of the store: device ids are unique, devices
conform to the schema, every event and screenshot belongs to a registered device,
and screenshot ids are distinct. The on-device capture agent is not part of this
model.

Files, in dependency order:

- `base.dfy`: `Option`, `Reply`, JSON body values, truthiness.
- `listing.dfy`: the Mongo filter, the newest-first sort, skip then limit, and `hasMore`.
- `device.dfy`, `event.dfy`, `screenshot.dfy`: the three schemas.
- `collector.dfy`: the store (module `Collector`) and its invariant.
- `device_routes.dfy`, `event_routes.dfy`, `screenshot_routes.dfy`: the routes.
- `js_number.dfy`: `parseInt` and `String(ms / 1000)`.
- `dashboard.dfy`: the dashboard.

The server mounts the routes under `/api/devices`, `/api/events` and `/api/screenshots`.
Devices register at `POST /api/devices/register-monitoring`, events arrive at
`POST /api/events/monitoring`, and screenshots arrive at
`POST /api/screenshots/upload-monitoring`.

## Model

| member | source | states |
|---|---|---|
| Listing.Filter | backend/routes/screenshots.js:68-78 | The records a Mongo query selects: only records satisfying the predicate, drawn from the collection, and every satisfying record is included. |
| Listing.FilterCount | backend/routes/screenshots.js:68-78 | A query keeps every copy of a record it selects and drops every copy of one it does not: the selection holds a record as often as the collection does when it matches, and never otherwise. |
| Listing.FilterPartition | backend/routes/screenshots.js:117-133 | The records a query deletes plus the records it keeps add up to the whole collection. |
| Listing.SortNewestFirst | backend/routes/screenshots.js:80-81 | `sort({ timestamp: -1 })` yields a permutation of its input whose timestamps never increase. |
| Listing.Window | backend/routes/screenshots.js:80-83 | `skip` then `limit`: the result is the records from position `skip` on, at most `limit` of them, with 0 meaning no limit, and its exact length. |
| Listing.PagesTile | backend/routes/events.js:52-55 | Two adjacent skip/limit windows of one fixed ranking read exactly the records of the window spanning both: paging through that ranking neither skips nor repeats a record. |
| Listing.PagesCover | backend/routes/events.js:52-55 | Reading pages 1..k of size n of one fixed ranking gives its first k·n records in order. |
| Listing.List | backend/routes/screenshots.js:80-93 | A listing holds only matching records, newest first, with exact length min(limit, total − skip). `total` is the number of matches. The unlimited listing from 0 is a permutation of all matches. `hasMore` holds iff total > skip + returned count. |
| Listing.ListIsWindow | backend/routes/screenshots.js:80-83 | The page a listing returns is the window of the matches ranked newest first: record i of the page is record skip + i of the ranking. |
| Listing.HasMoreIffNextPageNonEmpty | backend/routes/screenshots.js:93 | With a positive limit, `hasMore` is set exactly when the next page of the same size is non-empty, and a page that announces more is full. |
| Listing.FullListingHasAll | backend/routes/events.js:52-57 | The listing with limit 0 and skip 0 contains every matching record. |
| DeviceModel.Create | backend/models/Device.js:1-36 | A new device record keeps the given id and name, has interval 10000, which lies within [5000, 300000], is active, and has `lastActive` and `createdAt` equal to the creation time. |
| DeviceModel.IndexOf | backend/routes/devices.js:7 | `findOne({ deviceId })` finds the first record with that id, and finds none exactly when no record carries it. |
| DeviceModel.IndexOfUnique | backend/models/Device.js:4-8 | Under the unique index, looking up a stored record's id finds that very record. |
| Collector.UniqueCount | backend/models/Device.js:4-8 | Under the unique index, a registered id is carried by exactly one record and an unregistered id by none. |
| EventModel.ParseEventType | backend/models/Event.js:9-13 | The enum validator accepts a string iff it is the name of one of the six event types, and maps it to that type. |
| EventModel.NamesDistinct | backend/models/Event.js:9-13 | Distinct types have distinct stored names, and every type is in the six-value list. |
| EventModel.CreateEvent | backend/models/Event.js:3-28 | A new event exists iff its type name is valid. It keeps the device id and type name, its timestamp is the creation time, and its metadata keeps only the battery, charging and network fields. |
| ScreenshotModel.ShotMetaOf | backend/routes/screenshots.js:41-44 | Stored `imageSize` is the base64 length unless the client sends `imageSize`, which wins. The other metadata fields come from the client unchanged. |
| DeviceRoutes.Check | backend/routes/devices.js:5-18 | `registered` holds iff some record has the id; a device summary is present exactly then, and it is the summary of such a record. |
| DeviceRoutes.Fresh | backend/routes/devices.js:42-51 | First registration stores the given id. Each empty descriptive field gets its fallback: 'Monitoring Device', 'Unknown', 'Unknown', '1.0.0'. The record is active, has the default interval, and conforms to the schema. |
| DeviceRoutes.Refresh | backend/routes/devices.js:34-41 | Re-registration replaces each of name, model, OS and app version only with a non-empty new value, marks the record active, sets `lastActive` to now, and keeps id, interval and creation time. |
| DeviceRoutes.Register | backend/routes/devices.js:24-62 | With no id: 400 and nothing changes. Otherwise 200. An unknown id appends exactly one fresh record. A known id refreshes that record alone. Events and screenshots are untouched, and the reply shows the stored record. |
| DeviceRoutes.RegisterPreservesValid | backend/routes/devices.js:42-51 | Registration keeps the store valid, and afterwards exactly one record carries the registered id. |
| DeviceRoutes.RegisterIdempotent | backend/routes/devices.js:32-41 | Registering the same request twice creates no extra record, and the second call changes nothing but `lastActive`. |
| DeviceRoutes.GetInterval | backend/routes/devices.js:151-162 | Unknown device: 404. Otherwise 200 with the stored interval, or 10000 when it is unset (zero). |
| DeviceRoutes.GetIntervalReportsStored | backend/routes/devices.js:151-162 | In a valid store every device reads back its own stored interval, which lies in [5000, 300000]. |
| DeviceRoutes.CheckInterval | backend/routes/devices.js:173-181 | A missing, zero or non-numeric value gives 400 "Valid screenshot interval is required". A number outside [5000, 300000] gives the 400 range message. The value is accepted iff it is a number within the closed range. |
| DeviceRoutes.PutInterval | backend/routes/devices.js:169-204 | The body check comes first (400), then the device lookup (404). Every failure leaves the store unchanged. Success sets exactly that device's interval to the sent value and its `lastActive` to now. |
| DeviceRoutes.PutIntervalEffect | backend/routes/devices.js:183-191 | An update keeps the store valid, leaves every other device unchanged, and a later read returns the new value. |
| DeviceRoutes.DeleteDevice | backend/routes/devices.js:123-144 | Unknown device: 404 and no change. Otherwise the record is removed, then every event and screenshot with that id, and nothing else. |
| DeviceRoutes.DeleteDeviceEffect | backend/routes/devices.js:123-144 | Delete keeps the store valid. Nothing with the deleted id remains, and every event and screenshot of every other device is still there. |
| EventRoutes.AppendEvent | backend/routes/events.js:6-30 | Unknown device: 404 and no change. An invalid type: 500 and no change. Success iff the device is known and the type valid; it then appends exactly one event with the given id, type, metadata and time, and sets the device's `lastActive`. |
| EventRoutes.AppendEventPreservesValid | backend/routes/events.js:15-24 | Appending keeps the store valid and adds exactly one event exactly when it succeeds. |
| EventRoutes.ListEvents | backend/routes/events.js:32-67 | Each listed event matches `deviceId`, `eventType` and the inclusive date range. Events come newest first. Defaults are limit 100 and skip 0, and the length is exact. `total` counts all matches, and `hasMore` holds iff total > skip + returned count. |
| EventRoutes.ListEventsPage | backend/routes/events.js:52-55 | The events on the page are the matching events ranked newest first, taken from position `skip` on, at most `limit` of them. |
| EventRoutes.FullEventListing | backend/routes/events.js:52-57 | With limit 0 and skip 0 the listing contains every matching event. |
| EventRoutes.CountAllTypes | backend/models/Event.js:9-13 | Summing the per-type counts over the six types counts every event exactly once. |
| EventRoutes.GroupsOfAllTypes | backend/routes/events.js:88-96 | Grouping by type gives one group per type present, each with its positive count, no type twice, every event's type present, and the counts summing to the number of events. |
| EventRoutes.Stats | backend/routes/events.js:73-104 | Over events at or after `since` (of one device when given): one entry per distinct type present, with that type's count, and the counts sum to `totalEvents`, which is the number of matched events. |
| ScreenshotRoutes.UploadShot | backend/routes/screenshots.js:14-62 | The checks run in order: no id gives 400, then no image gives 400, then an unregistered device gives 404, each with no change. Success appends exactly one 'screenshot' event and one screenshot record for the device, and sets its `lastActive`. |
| ScreenshotRoutes.UploadPreservesValid | backend/routes/screenshots.js:31-50 | An upload keeps the store valid. On success it adds exactly one event and one screenshot, and the new screenshot id is unused. |
| ScreenshotRoutes.ListShots | backend/routes/screenshots.js:64-99 | Each listed screenshot matches `deviceId` and the inclusive date range. Screenshots come newest first. Defaults are limit 50 and skip 0, and the length is exact. `total` counts all matches, and `hasMore` holds iff total > skip + returned count. |
| ScreenshotRoutes.ListShotsPage | backend/routes/screenshots.js:80-83 | The screenshots on the page are the matching screenshots ranked newest first, taken from position `skip` on, at most `limit` of them. |
| ScreenshotRoutes.FullShotListing | backend/routes/screenshots.js:80-85 | With limit 0 and skip 0 the listing contains every matching screenshot. |
| ScreenshotRoutes.BulkDelete | backend/routes/screenshots.js:101-138 | Removes exactly the screenshots the listing filter selects, keeps the rest in order, reports how many it removed, and touches no device or event. |
| ScreenshotRoutes.BulkDeleteEffect | backend/routes/screenshots.js:101-134 | A bulk delete keeps the store valid, removed plus kept equals what was stored, a later listing with the same filter counts zero, and every non-matching record survives. |
| ScreenshotRoutes.ShotIndex | backend/routes/screenshots.js:142 | `findById` finds a record with the id, and finds none exactly when no record has it. |
| ScreenshotRoutes.GetShot | backend/routes/screenshots.js:140-152 | 200 with the stored record iff one has the id, otherwise 404. |
| ScreenshotRoutes.StripDataUrlPrefixSpec | backend/routes/screenshots.js:163 | A string that starts with `data:image/<word>;base64,` loses exactly that header; a string without one is unchanged. |
| ScreenshotRoutes.GetImage | backend/routes/screenshots.js:154-179 | Unknown id: 404. Stored base64 is sent with its header stripped. Otherwise an existing file at `imagePath` is sent. Otherwise 404 "Image data not found". |
| ScreenshotRoutes.DeleteShot | backend/routes/screenshots.js:181-203 | Unknown id: 404 and no change. Otherwise exactly that record is removed and nothing else changes. |
| ScreenshotRoutes.DeleteShotEffect | backend/routes/screenshots.js:181-199 | Single delete keeps the store valid, leaves no record with that id, removes one record on success, and keeps every other screenshot. |
| JsNumber.NatToString | admin-app/AdminDashboard/App.tsx:501 | `String(n)` for a natural number is a non-empty run of decimal digits whose value is n, with no leading zero. |
| JsNumber.ParseIntReadsNumeral | admin-app/AdminDashboard/App.tsx:509 | `parseInt` reads a decimal numeral back to its value, ignoring any trailing text that starts with a non-digit other than `x`. |
| JsNumber.ParseIntSkipsWhiteSpace | admin-app/AdminDashboard/App.tsx:509 | Leading white space does not change what `parseInt` reads. |
| JsNumber.FractionDigits | admin-app/AdminDashboard/App.tsx:501 | The fraction JavaScript prints for f thousandths: one to three decimal digits with no trailing zero, whose value scaled to thousandths is f. |
| JsNumber.SecondsText | admin-app/AdminDashboard/App.tsx:501 | `String(ms / 1000)`, computed in exact decimal arithmetic, is the whole seconds for whole seconds, and otherwise the whole seconds, a point and the shortest fraction of the remaining milliseconds. |
| JsNumber.SecondsTextOfHalfSecond | admin-app/AdminDashboard/App.tsx:501 | 7500 ms shows as "7.5". |
| JsNumber.ParseSecondsText | admin-app/AdminDashboard/App.tsx:501 | Reading the seconds text back with `parseInt` gives the whole seconds and drops the fraction. |
| Dashboard.IntervalText | admin-app/AdminDashboard/App.tsx:499-503 | The dialog text parses back to the device's interval in seconds, with 10 for an unset interval. In exact decimal arithmetic it is the digits for whole seconds, and otherwise the seconds, a point and the shortest fraction. |
| Dashboard.SubmitInterval | admin-app/AdminDashboard/App.tsx:505-522 | Nothing is sent without a selected device. A request is sent iff the text parses to an integer from 5 to 300. It targets that device with seconds × 1000, which always lies in [5000, 300000]. |
| Dashboard.SubmittedIntervalAccepted | admin-app/AdminDashboard/App.tsx:509-521 | Whatever the form sends for a stored device is accepted by the backend update, keeps the store valid, and is what the interval route returns afterwards. |
| Dashboard.ReopenAndSave | admin-app/AdminDashboard/App.tsx:499-516 | Opening the dialog and saving at once sends the stored interval truncated to whole seconds, unchanged when it already is whole seconds. |
| Dashboard.PageSkip | admin-app/AdminDashboard/App.tsx:699 | The skip for a page is a multiple of the page size whose quotient is page − 1. |
| Dashboard.TotalPages | admin-app/AdminDashboard/App.tsx:720 | `Math.ceil(total / perPage)`: the pages hold all records, the last page is not empty, and there are zero pages iff there are zero records. |
| Dashboard.TotalPagesUnique | admin-app/AdminDashboard/App.tsx:720 | The page count is the only number of pages that holds the records with a non-empty last page. |
| Dashboard.FetchQuery | admin-app/AdminDashboard/App.tsx:696-711 | The listing query uses limit perPage and skip (page − 1)·perPage, filters by device unless the chip is 'all', and passes the date range. |
| Dashboard.Loaded | admin-app/AdminDashboard/App.tsx:718-720 | After a listing, the total comes from the reply and the page count is the total divided, rounded up, by the page size the request was sent with. The page, page size and filters are unchanged, and the count agrees with the total when that size is still the current one. |
| Dashboard.StaleReplyCountsOldSize | admin-app/AdminDashboard/App.tsx:718-720 | A reply to a request sent at 10 a page that arrives after the size changed to 20 counts 3 pages for 25 records where 2 hold them. |
| Dashboard.PageWithinCount | admin-app/AdminDashboard/App.tsx:699-720 | A page starts before the end of the records iff its number is at most the page count. |
| Dashboard.PageInRangeNonEmpty | admin-app/AdminDashboard/App.tsx:696-720 | Fetching any page from 1 to the page count returns at least one screenshot. |
| Dashboard.GoToPage | admin-app/AdminDashboard/App.tsx:741-746 | The page changes only to a value in [1, totalPages]; otherwise the state is unchanged; nothing but the page ever changes. |
| Dashboard.GoToPageStaysWithinRecords | admin-app/AdminDashboard/App.tsx:741-746 | After a listing, any page `goToPage` moves to starts within the counted records. |
| Dashboard.Step | admin-app/AdminDashboard/App.tsx:730-758 | A new page size, device chip or refresh resets the page to 1, and so does bulk delete at line 856. Editing the dates (lines 969-985) keeps the page. A listing sets the total and counts pages in the page size of its request, so they agree with the total when that size is current. Deleting a page steps back at most one page, and does so exactly when the page is past the first and the number of deleted records equals `totalCount % perPage`, the condition written at line 809. Every step keeps a page ≥ 1 and an offered size. |
| Dashboard.Run | admin-app/AdminDashboard/App.tsx:665-673 | From the initial state (page 1, 10 a page, all devices), every sequence of screen actions keeps page ≥ 1 and a page size from 10, 15, 20, 30. |
| Dashboard.PageWindow | admin-app/AdminDashboard/App.tsx:1055-1065 | The strip has min(5, totalPages) buttons, numbered consecutively within [1, totalPages], and includes the current page when it is in range. |
| Dashboard.ShowingMatchesPage | admin-app/AdminDashboard/App.tsx:1011 | For a non-empty fetched page, "Showing a–b of n" names exactly the positions skip + 1 to skip + count of the records on screen, and b ≤ n. |
| Dashboard.PageAfterDeleteLandsOnRecords | admin-app/AdminDashboard/App.tsx:808-811 | With the corrected step-back condition, deleting a whole page lands on a page within the new page count, and that page has records unless none are left. |
| Dashboard.AsWrittenStaysOnEmptyPage | admin-app/AdminDashboard/App.tsx:809-811 | As written, deleting a full last page (total = page·perPage) stays on that page, which is past the new last page. The corrected step goes back one page. |
| Dashboard.AsWrittenExample | admin-app/AdminDashboard/App.tsx:809-811 | 20 records, 10 a page, on page 2: as written the page stays 2 while only 1 page is left. |
| Dashboard.GalleryStaysOnEmptiedPage | admin-app/AdminDashboard/App.tsx:809-811 | The screen step itself, with 20 records, 10 a page, on page 2: deleting the page leaves the gallery on page 2 while only 1 page is left. |
| Dashboard.AsWrittenAgreesOnPartialLastPage | admin-app/AdminDashboard/App.tsx:809-811 | On a last page that is not full, the condition as written agrees with the corrected one. |
| Dashboard.EventIcon | admin-app/AdminDashboard/App.tsx:370-380 | Each of the six known type names gets its own mapped icon, and any other string gets the clipboard. |
| Dashboard.StoredEventsHaveOwnIcon | admin-app/AdminDashboard/App.tsx:371-378 | A stored event's type gets its own icon, which differs from every other type's icon and from the fallback. |

## Left out

- The on-device capture agent (capture loop, consent, boot relaunch, lock and battery receivers, the app that hosts them) is not part of this model.
- Authentication, the server setup, configuration and the admin-creation script are not part of this model.
- `GET /api/devices`, `GET /api/devices/:deviceId` and `PATCH /:deviceId/status` are plain reads and a field write; they are not modelled.
- Every route's `catch` that turns a database failure into a 500 is not modelled; the store never fails.
- Timestamps are integers and `now` is a parameter. Parsing `startDate`/`endDate` with `new Date(...)` is not modelled.
- DeviceRoutes.Register: the duplicate-key branch (backend/routes/devices.js:64-75) only arises when two registrations race. Requests here are sequential, so it is not modelled.
- DeviceRoutes.PutInterval: JSON numbers are integers here. A fractional value such as 5000.5 passes the route's check and would be stored; this is not modelled.
- DeviceRoutes.DeleteDevice: the event and screenshot deletes run concurrently in the source; here they happen one after the other, with the same result.
- EventRoutes.AppendEvent: a body with no `deviceId` is treated as an unknown id (404). This assumes the driver sends the missing value as `null`. Mongoose's validation message for a bad `eventType` is a fixed constant here.
- EventRoutes.AppendEvent: the `location` sub-document of event metadata is not modelled.
- EventRoutes.AppendEvent: metadata values are typed numbers and flags, or absent. A value the Event schema cannot cast, such as `"batteryLevel": "full"`, makes the source answer 500; this path is not modelled.
- ScreenshotRoutes.UploadShot: metadata values are typed numbers, or absent. A value the Screenshot schema cannot cast, such as `"screenWidth": "wide"`, passes the event save (the Event schema drops that field) and then fails the screenshot save. The source then answers 500 with the 'screenshot' event already stored, no screenshot, and `lastActive` not updated. This partial write is not modelled: every failure of the model leaves the store unchanged.
- ScreenshotRoutes.UploadShot: an explicit `"imageSize": null` is spread over the default and stored as null in the source. The model has no null metadata value, so it stores the payload length there.
- Dashboard.SubmittedIntervalAccepted: the dashboard puts the device id into the URL path without encoding it (admin-app/AdminDashboard/App.tsx:518-519). An id holding `/`, `?`, `#` or `%` reaches another route or is decoded to another id, and the update then answers 404. The lemma takes the id to arrive as stored.
- EventRoutes.ListEvents: query `limit` and `skip` are taken as already-parsed natural numbers. Negative, fractional or non-numeric query text, and Mongo's treatment of a negative limit, are not modelled. The same holds for ScreenshotRoutes.ListShots.
- Listing.SortNewestFirst: records with equal timestamps keep storage order; Mongo leaves that order unspecified.
- Listing.PagesTile / Listing.PagesCover: these hold for pages of one fixed ranking. Each page request sorts again, and two requests may order records with the same timestamp differently, so real paging can skip or repeat such records. This is not modelled.
- EventRoutes.Stats: the start of the window (`days` before now, by calendar date) is a parameter. Groups come in the enumeration's order, while Mongo's `$group` output order is unspecified.
- ScreenshotRoutes.GetShot: ids are natural numbers. A malformed ObjectId, which makes the source answer 500, is not modelled. The same holds for ScreenshotRoutes.DeleteShot and ScreenshotRoutes.GetImage.
- ScreenshotRoutes.GetImage: base64 decoding, the content headers and reading the file are not modelled. The file system is a set of existing paths.
- ScreenshotRoutes.BulkDelete: unlinking files named by `imagePath` is not modelled. The same holds for ScreenshotRoutes.DeleteShot.
- The Screenshot schema's `imageUrl` field is never written by the routes, so it is not modelled.
- JsNumber.ParseInt: values are exact integers. Rounding of very long digit strings to a double is not modelled.
- JsNumber.SecondsText: the division is exact here. JavaScript rounds `ms / 1000` to a double, which changes the printed digits once the seconds exceed about 2^43. For example, 9000000000000001 ms prints as "9000000000000.002", where the model gives "9000000000000.001". The exponent notation JavaScript uses from 10^21 on is not modelled either. Stored intervals are at most 300000 ms, far below either bound.
- Dashboard.IntervalText: its exact-text clauses inherit the same gap from JsNumber.SecondsText for intervals above about 8.8·10^15 ms. A stored device never has such an interval.
- Dashboard.Step: the loading and refreshing flags and the rendering are not modelled. The second fetch that follows `setCurrentPage` through the effect hook is not modelled either. A listing reply carries the page size of its request, so a late reply is modelled; the order in which replies arrive is left to the action sequence.
- Dashboard.Step: deleting a page follows the step-back condition as the source writes it (see Findings). The corrected condition, Dashboard.PageAfterDelete, is proved on its own and is not wired into the screen steps.
- DeviceRoutes.Register: body fields are strings. Express's JSON parser also lets an object such as `{"$gt": ""}` reach Mongo as a query operator; this is not modelled.
- ScreenshotRoutes.ListShots: query fields are strings. The extended query-string parser also turns `deviceId[$ne]=x` into a Mongo operator; this is not modelled. The same holds for ScreenshotRoutes.BulkDelete and EventRoutes.ListEvents.
- ScreenshotModel.ShotMetaOf: the default `imageSize` counts characters, while JavaScript's `length` counts UTF-16 units. The two agree on base64 text, which is ASCII.
- Dashboard.FetchQuery: the source builds the URL without encoding its values. The query is modelled as its fields, so a device id holding `&` or `=` is not modelled.
- Dashboard.EventIcon: a type name equal to an `Object.prototype` key, such as `constructor`, would pick up that key's value in the source. This is not modelled.
- The events screen and the device list of the dashboard only render; they are not modelled.

## Findings

| source | as written | input that shows it | evidently intended | confidence | as-written member | corrected member |
|---|---|---|---|---|---|---|
| admin-app/AdminDashboard/App.tsx:809 | After deleting every screenshot on the current page, the page steps back only when `screenshots.length === totalCount % perPage`. A full last page leaves a remainder of 0, so the condition is false. | 20 screenshots, 10 a page, on page 2: deleting page 2 leaves 10 records and one page, but the gallery stays on the now-empty page 2. | The comment at line 808 says: go back one page when the current page is now empty and is not the first. | not executed | Dashboard.AsWrittenStaysOnEmptyPage, Dashboard.GalleryStaysOnEmptiedPage | Dashboard.PageAfterDeleteLandsOnRecords |

=== FILE: base.dfy ===
/** Value types shared by every part of the collector model: optional values,
    route replies, and the JSON body shapes a route handler inspects. */
module Base {

  /** The conventional Some/None datatype, used for absent keys and lookups. */
  datatype Option<+T> = None | Some(value: T) {

    /** The wrapped value, or `default` when there is none. */
    function GetOr(default: T): T {
      match this
      case Some(v) => v
      case None => default
    }
  }

  /** What a route sends back: a success status with its payload, or an
      error status with the text the route puts in `{ error: ... }`. */
  datatype Reply<+T> = Success(status: nat, value: T) | Failure(status: nat, error: string)

  /** A route's reply together with the collection state it leaves behind. */
  datatype Handled<S, +T> = Handled(store: S, reply: Reply<T>)

  /** One value of a parsed JSON request body. `Absent` is a key the client
      did not send; `Compound` stands for any object or array. Numbers are
      modelled as integers. */
  datatype Json = Absent | Null | Bool(b: bool) | Num(n: int) | Str(s: string) | Compound

  /** JavaScript truthiness of a body value. */
  predicate Truthy(v: Json) {
    match v
    case Absent => false
    case Null => false
    case Bool(b) => b
    case Num(n) => n != 0
    case Str(s) => s != ""
    case Compound => true
  }

  /** JavaScript `a || b` on string fields, where the empty string is falsy. */
  function OrElse(a: string, b: string): string {
    if a != "" then a else b
  }

  function Min(a: int, b: int): int {
    if a <= b then a else b
  }

  function Max(a: int, b: int): int {
    if a >= b then a else b
  }
}

=== FILE: collector.dfy ===
/** The collector's database: the three collections the routes read and
    write, and the invariant every route keeps. */
module Collector {
  import opened Base
  import opened DeviceModel
  import opened EventModel
  import opened ScreenshotModel
  import Listing

  /** The `devices`, `events` and `screenshots` collections in storage order,
      and the next screenshot `_id` to hand out. */
  datatype Store = Store(devices: seq<Device>, events: seq<Event>, screenshots: seq<Shot>, nextShotId: nat)

  /** The database the server starts with. */
  const Empty: Store := Store([], [], [], 0)

  /** The empty database satisfies the invariant, so every database the
      routes produce from it does too. */
  lemma EmptyValid()
    ensures Valid(Empty)
  {
  }

  /** Screenshot ids are below the counter and pairwise distinct. */
  predicate ShotIdsFresh(shots: seq<Shot>, next: nat) {
    && (forall i :: 0 <= i < |shots| ==> shots[i].id < next)
    && (forall i, j :: 0 <= i < j < |shots| ==> shots[i].id != shots[j].id)
  }

  /** Dropping screenshots keeps their ids below the counter and pairwise
      distinct. */
  lemma {:induction false} ShotIdsSurviveFilter(shots: seq<Shot>, next: nat, p: Shot -> bool)
    requires ShotIdsFresh(shots, next)
    ensures ShotIdsFresh(Listing.Filter(shots, p), next)
    decreases |shots|
  {
    if shots != [] {
      ShotIdsSurviveFilter(shots[1..], next, p);
      var rest := Listing.Filter(shots[1..], p);
      var kept := Listing.Filter(shots, p);
      if p(shots[0]) {
        assert kept == [shots[0]] + rest;
        forall j | 0 <= j < |rest|
          ensures rest[j].id != shots[0].id
        {
          var m :| 0 <= m < |shots[1..]| && shots[1..][m] == rest[j];
          assert shots[m + 1] == rest[j];
        }
        ConsFresh(shots[0], rest, next);
      } else {
        assert kept == rest;
      }
    }
  }

  /** Putting a record with a new id in front of fresh ids keeps them fresh. */
  lemma ConsFresh(s: Shot, rest: seq<Shot>, next: nat)
    requires ShotIdsFresh(rest, next) && s.id < next
    requires forall j :: 0 <= j < |rest| ==> rest[j].id != s.id
    ensures ShotIdsFresh([s] + rest, next)
  {
    var kept := [s] + rest;
    forall i, j | 0 <= i < j < |kept|
      ensures kept[i].id != kept[j].id
    {
      assert kept[j] == rest[j - 1];
      if i > 0 {
        assert kept[i] == rest[i - 1];
      }
    }
  }

  /** What the routes keep true of the database: device ids are unique and
      every device conforms to its schema; every event and screenshot
      belongs to a registered device; screenshot ids are unique. */
  predicate Valid(st: Store) {
    && UniqueIds(st.devices)
    && (forall i :: 0 <= i < |st.devices| ==> Conforms(st.devices[i]))
    && (forall i :: 0 <= i < |st.events| ==> Registered(st.devices, st.events[i].deviceId))
    && (forall i :: 0 <= i < |st.screenshots| ==> Registered(st.devices, st.screenshots[i].deviceId))
    && ShotIdsFresh(st.screenshots, st.nextShotId)
  }

  /** The number of stored devices carrying `id`. */
  function CountId(ds: seq<Device>, id: string): nat {
    if ds == [] then 0 else (if ds[0].deviceId == id then 1 else 0) + CountId(ds[1..], id)
  }

  /** Under the unique index a registered id is carried by exactly one
      record and an unregistered one by none. */
  lemma {:induction false} UniqueCount(ds: seq<Device>, id: string)
    requires UniqueIds(ds)
    ensures CountId(ds, id) == if Registered(ds, id) then 1 else 0
    decreases |ds|
  {
    if ds != [] {
      UniqueCount(ds[1..], id);
      if ds[0].deviceId == id {
        assert !Registered(ds[1..], id) by {
          forall i | 0 <= i < |ds[1..]|
            ensures ds[1..][i].deviceId != id
          {
            assert ds[1..][i] == ds[i + 1];
          }
        }
      } else {
        assert Registered(ds, id) == Registered(ds[1..], id) by {
          if Registered(ds[1..], id) {
            var k := IndexOf(ds[1..], id).value;
            assert ds[k + 1].deviceId == id;
          }
        }
      }
    }
  }
}

=== FILE: dashboard.dfy ===
/** The administrator dashboard's own logic (admin-app/AdminDashboard/App.tsx),
    apart from rendering and requests: the capture-interval dialog, the
    gallery's paging state, the page-number strip, the "Showing" line and the
    event icons. Each piece is connected to the backend route it talks to. */
module Dashboard {
  import opened Base
  import opened JsNumber
  import opened DeviceModel
  import opened EventModel
  import opened ScreenshotModel
  import opened Listing
  import opened Collector
  import DeviceRoutes
  import ScreenshotRoutes

  // ------------------------------------------------------------ arithmetic

  lemma MulMono(a: int, b: int, c: nat)
    requires a <= b
    ensures a * c <= b * c
  {
    assert b * c - a * c == (b - a) * c;
  }

  lemma BoundedMultiple(k: int, b: int)
    requires b > 0 && -b < k * b < b
    ensures k == 0
  {
  }

  /** Quotient and remainder are the only ones that add up. */
  lemma DivUnique(x: int, b: int, q: int, r: int)
    requires b > 0 && 0 <= r < b && x == q * b + r
    ensures x / b == q && x % b == r
  {
    var q', r' := x / b, x % b;
    assert x == q' * b + r';
    assert (q - q') * b == r' - r;
    BoundedMultiple(q - q', b);
  }

  // ------------------------------------------------------- interval dialog

  /** The seconds the dialog accepts. */
  const MinSeconds: int := 5
  const MaxSeconds: int := 300

  /** The interval a device record shows, with `||` putting in 10 seconds
      for an unset (zero) interval. */
  function ShownInterval(d: Device): int {
    if d.screenshotInterval != 0 then d.screenshotInterval else DefaultInterval
  }

  /** The text the interval dialog opens with: the interval in seconds. */
  function IntervalText(d: Device): (s: string)
    ensures ShownInterval(d) >= 0 ==> ParseInt(s) == Some(ShownInterval(d) / 1000)
    ensures ShownInterval(d) >= 0 && ShownInterval(d) % 1000 == 0 ==> s == NatToString(ShownInterval(d) / 1000)
    ensures ShownInterval(d) >= 0 && ShownInterval(d) % 1000 != 0 ==>
      s == NatToString(ShownInterval(d) / 1000) + "." + FractionDigits(ShownInterval(d) % 1000)
  {
    var ms := ShownInterval(d);
    if ms >= 0 then ParseSecondsText(ms); SecondsText(ms) else SecondsText(ms)
  }

  /** What pressing "Update" does: nothing without a selected device, an
      alert for text that is not a whole number of seconds from 5 to 300,
      otherwise `PUT /:deviceId/interval` with the milliseconds. */
  datatype Submission = NoDevice | Rejected | Send(deviceId: string, body: Json)

  function SubmitInterval(selected: Option<Device>, input: string): (r: Submission)
    ensures selected.None? ==> r == NoDevice
    ensures r.Send? <==> selected.Some? && ParseInt(input).Some? && MinSeconds <= ParseInt(input).value <= MaxSeconds
    ensures r.Send? ==> r.deviceId == selected.value.deviceId
    ensures r.Send? ==> r.body.Num? && r.body.n % 1000 == 0 && r.body.n / 1000 == ParseInt(input).value
    ensures r.Send? ==> IntervalInRange(r.body.n)
  {
    match selected
    case None => NoDevice
    case Some(d) =>
      match ParseInt(input)
      case None => Rejected
      case Some(seconds) =>
        if seconds < MinSeconds || seconds > MaxSeconds then Rejected
        else Send(d.deviceId, Num(seconds * 1000))
  }

  /** Whatever the dialog sends passes the route's own range check, so for a
      stored device the update goes through and a later read shows it. */
  lemma SubmittedIntervalAccepted(st: Store, d: Device, input: string, now: int)
    requires Valid(st) && d in st.devices
    ensures var r := SubmitInterval(Some(d), input);
      r.Send? ==>
        var put := DeviceRoutes.PutInterval(st, r.deviceId, r.body, now);
        && put.reply.Success?
        && Valid(put.store)
        && DeviceRoutes.GetInterval(put.store, d.deviceId) == Success(200, DeviceRoutes.IntervalView(d.deviceId, r.body.n))
  {
    var r := SubmitInterval(Some(d), input);
    if r.Send? {
      var k :| 0 <= k < |st.devices| && st.devices[k] == d;
      IndexOfUnique(st.devices, k);
      DeviceRoutes.PutIntervalEffect(st, d.deviceId, r.body, now);
    }
  }

  /** Opening the dialog on a stored device and saving at once sends the
      interval cut down to whole seconds: a whole-second interval is kept,
      any other loses its fraction. */
  lemma ReopenAndSave(st: Store, d: Device)
    requires Valid(st) && d in st.devices
    ensures SubmitInterval(Some(d), IntervalText(d)) == Send(d.deviceId, Num(d.screenshotInterval / 1000 * 1000))
    ensures d.screenshotInterval % 1000 == 0 ==> SubmitInterval(Some(d), IntervalText(d)).body == Num(d.screenshotInterval)
  {
    var k :| 0 <= k < |st.devices| && st.devices[k] == d;
    assert Conforms(st.devices[k]);
  }

  // ------------------------------------------------------------- gallery

  /** The page sizes the gallery offers. */
  const PerPageChoices: seq<nat> := [10, 15, 20, 30]

  /** The device chip that removes the device filter. */
  const AllDevices: string := "all"

  /** The gallery's state: current page, page size, the page count and total
      from the last listing, the device chip and the date filter. */
  datatype Gallery = Gallery(page: int, perPage: nat, totalPages: nat, totalCount: nat, device: string, range: Range)

  const InitialGallery: Gallery := Gallery(1, 10, 1, 0, AllDevices, Range(None, None))

  /** What every reachable state has: a page from 1 on and an offered size. */
  predicate GalleryOk(g: Gallery) {
    g.page >= 1 && g.perPage in PerPageChoices
  }

  /** The number of records before a page. */
  function PageSkip(page: int, perPage: nat): (skip: nat)
    requires page >= 1
    ensures perPage > 0 ==> skip % perPage == 0 && skip / perPage == page - 1
  {
    var skip := (page - 1) * perPage;
    if perPage > 0 then DivUnique(skip, perPage, page - 1, 0); skip else skip
  }

  /** `Math.ceil(total / perPage)`. */
  function TotalPages(total: nat, perPage: nat): (n: nat)
    requires perPage > 0
    ensures n * perPage >= total
    ensures n > 0 ==> (n - 1) * perPage < total
    ensures n == 0 <==> total == 0
  {
    (total + perPage - 1) / perPage
  }

  /** The page count is the one number of pages that holds `total`
      records with the last one not empty. */
  lemma TotalPagesUnique(total: nat, perPage: nat, n: nat)
    requires perPage > 0
    requires n * perPage >= total && (n > 0 ==> (n - 1) * perPage < total)
    ensures TotalPages(total, perPage) == n
  {
    var m := TotalPages(total, perPage);
    if m < n {
      MulMono(m, n - 1, perPage);
    } else if n < m {
      MulMono(n, m - 1, perPage);
    }
  }

  /** The query `fetchScreenshots` sends for the current state. */
  function FetchQuery(g: Gallery): (q: ScreenshotRoutes.ShotQuery)
    requires g.page >= 1
    ensures q.limit == Some(g.perPage) && q.skip == Some(PageSkip(g.page, g.perPage))
    ensures q.criteria.range == g.range
    ensures g.device == AllDevices ==> q.criteria.deviceId == ""
    ensures g.device != AllDevices ==> q.criteria.deviceId == g.device
  {
    var id := if g.device == AllDevices then "" else g.device;
    ScreenshotRoutes.ShotQuery(ScreenshotRoutes.ShotCriteria(id, g.range), Some(g.perPage), Some(PageSkip(g.page, g.perPage)))
  }

  /** The gallery after a listing came back. The page count is worked out
      with `perPage`, the page size the request was sent with, which is
      the current one unless the size changed while the request was out. */
  function Loaded(g: Gallery, total: nat, perPage: nat): (r: Gallery)
    requires perPage > 0
    ensures r.totalCount == total && r.totalPages == TotalPages(total, perPage)
    ensures r.page == g.page && r.perPage == g.perPage && r.device == g.device && r.range == g.range
    ensures perPage == g.perPage ==> PagesAgree(r)
  {
    g.(totalCount := total, totalPages := TotalPages(total, perPage))
  }

  /** The next page starts one page further on. */
  lemma SkipStep(page: int, perPage: nat)
    requires page >= 1
    ensures PageSkip(page + 1, perPage) == PageSkip(page, perPage) + perPage
    ensures page * perPage == PageSkip(page, perPage) + perPage
  {
    assert page * perPage == (page - 1) * perPage + perPage;
  }

  /** A page starts before the end of the records exactly when it is
      within the page count. */
  lemma PageWithinCount(page: int, perPage: nat, total: nat)
    requires perPage > 0 && page >= 1
    ensures PageSkip(page, perPage) < total <==> page <= TotalPages(total, perPage)
  {
    var n := TotalPages(total, perPage);
    if page <= n {
      MulMono(page - 1, n - 1, perPage);
    } else {
      MulMono(n, page - 1, perPage);
    }
  }

  /** A page between 1 and the page count of the listing is never empty. */
  lemma PageInRangeNonEmpty(st: Store, g: Gallery)
    requires GalleryOk(g)
    ensures var p := ScreenshotRoutes.ListShots(st, FetchQuery(g));
      1 <= g.page <= TotalPages(p.total, g.perPage) ==> |p.items| > 0
  {
    var p := ScreenshotRoutes.ListShots(st, FetchQuery(g));
    PageWithinCount(g.page, g.perPage, p.total);
  }

  /** `goToPage`: move only to a page between 1 and the page count. */
  function GoToPage(g: Gallery, page: int): (r: Gallery)
    ensures 1 <= page <= g.totalPages ==> r.page == page
    ensures !(1 <= page <= g.totalPages) ==> r == g
    ensures r.(page := g.page) == g
  {
    if page >= 1 && page <= g.totalPages then g.(page := page) else g
  }

  /** The page count the state carries agrees with its total. */
  predicate PagesAgree(g: Gallery) {
    g.perPage > 0 && g.totalPages == TotalPages(g.totalCount, g.perPage)
  }

  /** After a listing, every page `goToPage` accepts lies within the
      records the listing counted. */
  lemma GoToPageStaysWithinRecords(g: Gallery, page: int)
    requires GalleryOk(g) && PagesAgree(g)
    ensures var r := GoToPage(g, page);
      GalleryOk(r) && (r.page != g.page ==> PageSkip(r.page, r.perPage) < g.totalCount)
  {
    var r := GoToPage(g, page);
    if r.page != g.page {
      PageWithinCount(r.page, g.perPage, g.totalCount);
    }
  }

  /** The user actions and responses that change the gallery state. */
  datatype Action =
    | GoTo(page: int)
    | SetPerPage(perPage: nat)
    | SetDevice(deviceId: string)
    | SetRange(range: Range)
    | Refresh
    | Listed(total: nat, requestPerPage: nat)
    | PageDeleted(shown: nat)
    | AllDeleted

  /** The actions the screen can produce: page sizes, including the one a
      listing request was sent with, come from the offered buttons. */
  predicate Offered(a: Action) {
    && (a.SetPerPage? ==> a.perPage in PerPageChoices)
    && (a.Listed? ==> a.requestPerPage in PerPageChoices)
  }

  /** One step of the gallery: a new page size or device chip, a pull to
      refresh and a bulk delete go back to page 1; editing the dates keeps
      the page; deleting the shown page steps back at most one page, by the
      condition the code uses. */
  function Step(g: Gallery, a: Action): (r: Gallery)
    requires GalleryOk(g) && Offered(a)
    ensures GalleryOk(r)
    ensures a.SetPerPage? || a.SetDevice? || a.Refresh? || a.AllDeleted? ==> r.page == 1
    ensures a.SetRange? ==> r.page == g.page && r.range == a.range
    ensures a.Listed? ==> r.totalCount == a.total && r.totalPages == TotalPages(a.total, a.requestPerPage)
    ensures a.Listed? && a.requestPerPage == g.perPage ==> PagesAgree(r)
    ensures a.PageDeleted? ==> r.page == g.page || (g.page > 1 && r.page == g.page - 1)
    ensures a.PageDeleted? ==> (r.page < g.page <==> g.page > 1 && a.shown == g.totalCount % g.perPage)
    ensures r.perPage == (if a.SetPerPage? then a.perPage else g.perPage)
  {
    match a
    case GoTo(page) => GoToPage(g, page)
    case SetPerPage(n) => g.(perPage := n, page := 1)
    case SetDevice(id) => g.(device := id, page := 1)
    case SetRange(range) => g.(range := range)
    case Refresh => g.(page := 1)
    case Listed(total, n) => Loaded(g, total, n)
    case PageDeleted(shown) => g.(page := PageAfterDeleteAsWritten(g.page, g.perPage, g.totalCount, shown))
    case AllDeleted => g.(page := 1)
  }

  /** The state after a run of offered actions from the initial one; every
      such state keeps a page from 1 on and an offered page size. */
  function Run(actions: seq<Action>): (g: Gallery)
    requires forall i :: 0 <= i < |actions| ==> Offered(actions[i])
    ensures GalleryOk(g)
    decreases |actions|
  {
    if actions == [] then InitialGallery
    else Step(Run(actions[..|actions| - 1]), actions[|actions| - 1])
  }

  /** A reply to a request sent before the page size changed counts its
      pages in the old size: 25 records at 10 a page make 3 pages, where 20
      a page would make 2. */
  lemma StaleReplyCountsOldSize()
    ensures var g := Step(Step(InitialGallery, SetPerPage(20)), Listed(25, 10));
      g.perPage == 20 && g.totalPages == 3 && TotalPages(25, 20) == 2 && !PagesAgree(g)
  {
  }

  // ----------------------------------------------------- page-number strip

  /** The up to five page buttons around the current page. */
  function PageWindow(current: int, totalPages: int): (r: seq<int>)
    ensures |r| == Max(0, Min(5, totalPages))
    ensures forall i :: 0 < i < |r| ==> r[i] == r[i - 1] + 1
    ensures forall i :: 0 <= i < |r| ==> 1 <= r[i] <= totalPages
    ensures 1 <= current <= totalPages ==> current in r
  {
    var n := Max(0, Min(5, totalPages));
    var first := if totalPages <= 5 || current <= 3 then 1
                 else if current >= totalPages - 2 then totalPages - 4
                 else current - 2;
    var r := seq(n, i requires 0 <= i < n => first + i);
    assert 1 <= current <= totalPages ==> r[current - first] == current;
    r
  }

  // ------------------------------------------------------- "Showing" line

  /** The first and last record numbers the "Showing" line prints for a
      page of `shown` records out of `total`. */
  function ShowingRange(shown: nat, page: int, perPage: nat, total: nat): (int, int) {
    (if shown > 0 then (page - 1) * perPage + 1 else 0, Min(page * perPage, total))
  }

  /** For a fetched page that is not empty, the line names exactly the
      positions of the records on screen. */
  lemma ShowingMatchesPage(st: Store, g: Gallery)
    requires GalleryOk(g)
    ensures var p := ScreenshotRoutes.ListShots(st, FetchQuery(g));
      var (from, to) := ShowingRange(|p.items|, g.page, g.perPage, p.total);
      |p.items| > 0 ==> from == p.skip + 1 && to == p.skip + |p.items| && to <= p.total
  {
    SkipStep(g.page, g.perPage);
  }

  // -------------------------------------------------------- deleting a page

  /** `deleteCurrentPage` as written: after deleting the `shown` records of
      the page, step back when their number equals `total % perPage`. A
      full last page leaves a remainder of 0, so it never steps back. */
  function PageAfterDeleteAsWritten(page: int, perPage: nat, total: nat, shown: nat): int
    requires perPage > 0
  {
    if shown == total % perPage && page > 1 then page - 1 else page
  }

  /** The step the code means: go back one page when the current page no
      longer has any record. */
  function PageAfterDelete(page: int, perPage: nat, total: nat, shown: nat): int {
    if page > 1 && PageSkip(page, perPage) >= total - shown then page - 1 else page
  }

  /** After the whole of a non-empty page is deleted, the corrected step
      lands on a page between 1 and the new page count, and that page has
      records unless none are left. */
  lemma PageAfterDeleteLandsOnRecords(page: int, perPage: nat, total: nat, shown: nat)
    requires perPage > 0 && page >= 1
    requires PageSkip(page, perPage) < total
    requires shown == Min(perPage, total - PageSkip(page, perPage))
    ensures var p := PageAfterDelete(page, perPage, total, shown);
      && 1 <= p <= Max(1, TotalPages(total - shown, perPage))
      && (total - shown > 0 ==> PageSkip(p, perPage) < total - shown)
  {
    var p := PageAfterDelete(page, perPage, total, shown);
    var left := total - shown;
    if p < page {
      SkipStep(p, perPage);
    }
    PageWithinCount(p, perPage, left);
  }

  /** The code as written stays on a full last page after deleting it: the
      page it shows afterwards is past the last page. */
  lemma AsWrittenStaysOnEmptyPage(page: int, perPage: nat)
    requires perPage > 0 && page > 1
    ensures var total := page * perPage;
      && PageAfterDeleteAsWritten(page, perPage, total, perPage) == page
      && page > TotalPages(total - perPage, perPage)
      && PageAfterDelete(page, perPage, total, perPage) == page - 1
  {
    var total := page * perPage;
    DivUnique(total, perPage, page, 0);
    assert total - perPage == (page - 1) * perPage;
    assert (page - 2) * perPage == (page - 1) * perPage - perPage;
    TotalPagesUnique(total - perPage, perPage, page - 1);
  }

  /** The smallest case: 20 records, 10 a page, on page 2. */
  lemma AsWrittenExample()
    ensures PageAfterDeleteAsWritten(2, 10, 20, 10) == 2
    ensures TotalPages(20 - 10, 10) == 1
  {
  }

  /** On a last page that is not full, the code as written already does
      what is meant. */
  lemma AsWrittenAgreesOnPartialLastPage(page: int, perPage: nat, total: nat)
    requires perPage > 0 && page >= 1
    requires (page - 1) * perPage < total < page * perPage
    ensures var shown := total - (page - 1) * perPage;
      PageAfterDeleteAsWritten(page, perPage, total, shown) == PageAfterDelete(page, perPage, total, shown)
  {
    var skip := (page - 1) * perPage;
    var shown := total - skip;
    assert page * perPage == skip + perPage;
    DivUnique(total, perPage, page - 1, shown);
  }

  /** The gallery keeps showing an emptied full last page: deleting the 10
      records of page 2 out of 20 leaves the gallery on page 2 while only
      one page is left. */
  lemma GalleryStaysOnEmptiedPage()
    ensures var g := Step(Gallery(2, 10, 2, 20, AllDevices, Range(None, None)), PageDeleted(10));
      g.page == 2 && TotalPages(20 - 10, 10) == 1
  {
  }

  // ------------------------------------------------------------ event icons

  const DefaultIcon: string := "\U{1F4CB}"

  /** The emoji the event list shows for each event type. */
  function IconOf(t: EventType): string {
    match t
    case Unlock => "\U{1F513}"
    case Lock => "\U{1F512}"
    case ScreenOn => "\U{1F4A1}"
    case Screenshot => "\U{1F4F8}"
    case AppOpen => "\U{1F4F1}"
    case AppClose => "\U{274C}"
  }

  /** `getEventIcon`: the type's own emoji, a clipboard for an unknown type. */
  function EventIcon(eventType: string): (r: string)
    ensures forall t :: Name(t) == eventType ==> r == IconOf(t)
    ensures ParseEventType(eventType).None? ==> r == DefaultIcon
  {
    match ParseEventType(eventType)
    case Some(t) => IconOf(t)
    case None => DefaultIcon
  }

  /** Every stored event gets an icon of its own type, different from the
      icon of every other type and from the fallback. */
  lemma StoredEventsHaveOwnIcon(e: Event, t: EventType)
    ensures EventIcon(Name(e.eventType)) == IconOf(e.eventType)
    ensures IconOf(e.eventType) != DefaultIcon
    ensures t != e.eventType ==> IconOf(t) != IconOf(e.eventType)
  {
  }
}

=== FILE: device.dfy ===
/** The `Device` collection's record (backend/models/Device.js): its fields,
    the schema's defaults and declared interval bounds, and lookup by the
    unique `deviceId`. */
module DeviceModel {
  import opened Base

  /** Capture interval in milliseconds when none was set. */
  const DefaultInterval: int := 10000
  /** Declared lower bound of the capture interval: five seconds. */
  const MinInterval: int := 5000
  /** Declared upper bound of the capture interval: five minutes. */
  const MaxInterval: int := 300000

  /** Values the registration route puts in when the client sends none. */
  const DefaultName: string := "Monitoring Device"
  const DefaultModel: string := "Unknown"
  const DefaultOsVersion: string := "Unknown"
  const DefaultAppVersion: string := "1.0.0"

  /** One stored device. Dates are integer timestamps. */
  datatype Device = Device(
    deviceId: string,
    deviceName: string,
    deviceModel: string,
    osVersion: string,
    appVersion: string,
    screenshotInterval: int,
    lastActive: int,
    isActive: bool,
    createdAt: int)

  predicate IntervalInRange(ms: int) {
    MinInterval <= ms <= MaxInterval
  }

  /** What the schema demands of a stored record: both required strings
      present (Mongoose refuses an empty required string) and the interval
      within its declared bounds. */
  predicate Conforms(d: Device) {
    && d.deviceId != ""
    && d.deviceName != ""
    && IntervalInRange(d.screenshotInterval)
  }

  /** The `unique: true` index on `deviceId`. */
  predicate UniqueIds(ds: seq<Device>) {
    forall i, j :: 0 <= i < j < |ds| ==> ds[i].deviceId != ds[j].deviceId
  }

  /** A new record as `new Device({...})` builds it: the given strings, and
      the schema defaults for everything the caller leaves out. */
  function Create(deviceId: string, deviceName: string, deviceModel: string, osVersion: string,
                  appVersion: string, now: int): (d: Device)
    ensures d.deviceId == deviceId && d.deviceName == deviceName
    ensures d.screenshotInterval == DefaultInterval && IntervalInRange(d.screenshotInterval)
    ensures d.isActive
    ensures d.lastActive == now && d.createdAt == now
    ensures deviceId != "" && deviceName != "" ==> Conforms(d)
  {
    Device(deviceId, deviceName, deviceModel, osVersion, appVersion, DefaultInterval, now, true, now)
  }

  /** `findOne({ deviceId: id })`: the position of the first record with
      that id, if any. */
  function IndexOf(ds: seq<Device>, id: string): (r: Option<nat>)
    ensures r.Some? ==> r.value < |ds| && ds[r.value].deviceId == id
    ensures r.Some? ==> forall i :: 0 <= i < r.value ==> ds[i].deviceId != id
    ensures r.None? <==> forall i :: 0 <= i < |ds| ==> ds[i].deviceId != id
    decreases |ds|
  {
    if ds == [] then None
    else if ds[0].deviceId == id then Some(0)
    else
      match IndexOf(ds[1..], id)
      case None => None
      case Some(k) => Some(k + 1)
  }

  predicate Registered(ds: seq<Device>, id: string) {
    IndexOf(ds, id).Some?
  }

  /** With unique ids, the lookup finds the one record carrying the id. */
  lemma IndexOfUnique(ds: seq<Device>, i: nat)
    requires UniqueIds(ds)
    requires i < |ds|
    ensures IndexOf(ds, ds[i].deviceId) == Some(i)
  {
  }
}

=== FILE: device_routes.dfy ===
/** The `/api/devices` routes (backend/routes/devices.js): the registration
    check, the registration upsert, reading and setting the capture
    interval, and the cascading delete. Each route is a pure function from
    the database and the request to the new database and the reply. */
module DeviceRoutes {
  import opened Base
  import opened DeviceModel
  import opened EventModel
  import opened ScreenshotModel
  import opened Collector
  import Listing

  const DeviceNotFound: string := "Device not found"
  const DeviceIdRequired: string := "Device ID is required"
  const IntervalRequired: string := "Valid screenshot interval is required"
  const IntervalOutOfRange: string := "Screenshot interval must be between 5 seconds (5000ms) and 5 minutes (300000ms)"
  const DeviceDeleted: string := "Device and all related data deleted successfully"

  /** A record with `id` is stored at position `i`. */
  lemma RegisteredAt(ds: seq<Device>, i: nat, id: string)
    requires i < |ds| && ds[i].deviceId == id
    ensures Registered(ds, id)
  {
  }

  // ---------------------------------------------------------------- check

  /** The `device` object of the check reply. */
  datatype Summary = Summary(deviceId: string, deviceName: string, deviceModel: string, isActive: bool, lastActive: int)

  function SummaryOf(d: Device): Summary {
    Summary(d.deviceId, d.deviceName, d.deviceModel, d.isActive, d.lastActive)
  }

  datatype CheckView = CheckView(registered: bool, device: Option<Summary>)

  /** `GET /check/:deviceId`: whether a record with the id exists, and its
      summary when it does. */
  function Check(st: Store, id: string): (r: CheckView)
    ensures r.registered <==> exists i :: 0 <= i < |st.devices| && st.devices[i].deviceId == id
    ensures r.device.Some? <==> r.registered
    ensures r.device.Some? ==>
      exists i :: 0 <= i < |st.devices| && st.devices[i].deviceId == id && r.device.value == SummaryOf(st.devices[i])
  {
    match IndexOf(st.devices, id)
    case None => CheckView(false, None)
    case Some(k) => CheckView(true, Some(SummaryOf(st.devices[k])))
  }

  // --------------------------------------------------------- registration

  /** The body of `POST /register-monitoring`; an empty string is a field the
      client left out or sent empty. */
  datatype Registration = Registration(deviceId: string, deviceName: string, deviceModel: string, osVersion: string, appVersion: string)

  /** The `device` object of the registration reply. */
  datatype RegisterView = RegisterView(deviceId: string, deviceName: string, deviceModel: string, isActive: bool)

  function RegisterViewOf(d: Device): RegisterView {
    RegisterView(d.deviceId, d.deviceName, d.deviceModel, d.isActive)
  }

  /** What re-registration does to an existing record `d`, giving `d'`: each
      descriptive field is replaced only by a non-empty new value, the record
      is marked active and seen `now`, and its id, interval and creation
      time stay. */
  predicate Refreshed(d: Device, d': Device, req: Registration, now: int) {
    && d'.deviceId == d.deviceId
    && d'.deviceName == (if req.deviceName != "" then req.deviceName else d.deviceName)
    && d'.deviceModel == (if req.deviceModel != "" then req.deviceModel else d.deviceModel)
    && d'.osVersion == (if req.osVersion != "" then req.osVersion else d.osVersion)
    && d'.appVersion == (if req.appVersion != "" then req.appVersion else d.appVersion)
    && d'.isActive
    && d'.lastActive == now
    && d'.screenshotInterval == d.screenshotInterval
    && d'.createdAt == d.createdAt
  }

  /** The record a first registration creates: the route's fallbacks for
      missing strings and the schema defaults for the rest. */
  function Fresh(req: Registration, now: int): (d: Device)
    ensures d.deviceId == req.deviceId
    ensures d.deviceName == (if req.deviceName != "" then req.deviceName else DefaultName)
    ensures d.deviceModel == (if req.deviceModel != "" then req.deviceModel else DefaultModel)
    ensures d.osVersion == (if req.osVersion != "" then req.osVersion else DefaultOsVersion)
    ensures d.appVersion == (if req.appVersion != "" then req.appVersion else DefaultAppVersion)
    ensures d.isActive && d.screenshotInterval == DefaultInterval
    ensures d.lastActive == now && d.createdAt == now
    ensures req.deviceId != "" ==> Conforms(d)
  {
    Create(req.deviceId, OrElse(req.deviceName, DefaultName), OrElse(req.deviceModel, DefaultModel),
           OrElse(req.osVersion, DefaultOsVersion), OrElse(req.appVersion, DefaultAppVersion), now)
  }

  function Refresh(d: Device, req: Registration, now: int): (d': Device)
    ensures Refreshed(d, d', req, now)
  {
    d.(deviceName := OrElse(req.deviceName, d.deviceName),
       deviceModel := OrElse(req.deviceModel, d.deviceModel),
       osVersion := OrElse(req.osVersion, d.osVersion),
       appVersion := OrElse(req.appVersion, d.appVersion),
       lastActive := now,
       isActive := true)
  }

  /** `POST /register-monitoring`: an upsert keyed by `deviceId`. */
  function Register(st: Store, req: Registration, now: int): (r: Handled<Store, RegisterView>)
    ensures req.deviceId == "" ==> r.reply == Failure(400, DeviceIdRequired) && r.store == st
    ensures req.deviceId != "" ==> r.reply.Success? && r.reply.status == 200
    ensures r.store.events == st.events && r.store.screenshots == st.screenshots
    ensures r.store.nextShotId == st.nextShotId
    ensures req.deviceId != "" && !Registered(st.devices, req.deviceId) ==>
      r.store.devices == st.devices + [Fresh(req, now)]
    ensures req.deviceId != "" && Registered(st.devices, req.deviceId) ==>
      var k := IndexOf(st.devices, req.deviceId).value;
      && |r.store.devices| == |st.devices|
      && (forall i :: 0 <= i < |st.devices| && i != k ==> r.store.devices[i] == st.devices[i])
      && Refreshed(st.devices[k], r.store.devices[k], req, now)
    ensures r.reply.Success? ==>
      exists i :: 0 <= i < |r.store.devices| && r.store.devices[i].deviceId == req.deviceId
                  && r.reply.value == RegisterViewOf(r.store.devices[i])
  {
    if req.deviceId == "" then Handled(st, Failure(400, DeviceIdRequired))
    else
      match IndexOf(st.devices, req.deviceId)
      case Some(k) =>
        var d := Refresh(st.devices[k], req, now);
        Handled(st.(devices := st.devices[k := d]), Success(200, RegisterViewOf(d)))
      case None =>
        var d := Fresh(req, now);
        var ds := st.devices + [d];
        assert ds[|st.devices|] == d;
        Handled(st.(devices := ds), Success(200, RegisterViewOf(d)))
  }

  /** Events and screenshots stay attached to registered devices when the
      device list keeps every id it had. */
  lemma IdsKept(st: Store, ds: seq<Device>)
    requires Valid(st)
    requires |ds| >= |st.devices|
    requires forall i :: 0 <= i < |st.devices| ==> ds[i].deviceId == st.devices[i].deviceId
    ensures forall i :: 0 <= i < |st.events| ==> Registered(ds, st.events[i].deviceId)
    ensures forall i :: 0 <= i < |st.screenshots| ==> Registered(ds, st.screenshots[i].deviceId)
  {
    forall i | 0 <= i < |st.events|
      ensures Registered(ds, st.events[i].deviceId)
    {
      var k := IndexOf(st.devices, st.events[i].deviceId).value;
      RegisteredAt(ds, k, st.events[i].deviceId);
    }
    forall i | 0 <= i < |st.screenshots|
      ensures Registered(ds, st.screenshots[i].deviceId)
    {
      var k := IndexOf(st.devices, st.screenshots[i].deviceId).value;
      RegisteredAt(ds, k, st.screenshots[i].deviceId);
    }
  }

  /** Registration keeps the database valid, and afterwards exactly one
      record carries the registered id: it never creates a duplicate. */
  lemma RegisterPreservesValid(st: Store, req: Registration, now: int)
    requires Valid(st)
    ensures Valid(Register(st, req, now).store)
    ensures req.deviceId != "" ==> CountId(Register(st, req, now).store.devices, req.deviceId) == 1
  {
    var st' := Register(st, req, now).store;
    if req.deviceId != "" {
      IdsKept(st, st'.devices);
      if Registered(st.devices, req.deviceId) {
        var k := IndexOf(st.devices, req.deviceId).value;
        assert forall i :: 0 <= i < |st'.devices| ==> st'.devices[i].deviceId == st.devices[i].deviceId;
      } else {
        assert st'.devices[|st.devices|] == Fresh(req, now);
      }
      assert Valid(st');
      UniqueCount(st'.devices, req.deviceId);
      RegisteredAt(st'.devices, if Registered(st.devices, req.deviceId) then IndexOf(st.devices, req.deviceId).value else |st.devices|, req.deviceId);
    }
  }

  /** Sending the same registration twice leaves as many records as sending
      it once, and the second call changes nothing but `lastActive`. */
  lemma RegisterIdempotent(st: Store, req: Registration, t1: int, t2: int)
    requires Valid(st)
    requires req.deviceId != ""
    ensures var once := Register(st, req, t1).store;
            var twice := Register(once, req, t2).store;
            && |twice.devices| == |once.devices|
            && forall i :: 0 <= i < |once.devices| ==> twice.devices[i] == once.devices[i].(lastActive := twice.devices[i].lastActive)
  {
    var once := Register(st, req, t1).store;
    RegisterPreservesValid(st, req, t1);
    var k := if Registered(st.devices, req.deviceId) then IndexOf(st.devices, req.deviceId).value else |st.devices|;
    assert once.devices[k].deviceId == req.deviceId;
    RegisteredAt(once.devices, k, req.deviceId);
    IndexOfUnique(once.devices, k);
    assert Carries(once.devices[k], req);
    var twice := Register(once, req, t2).store;
    RefreshAgain(once.devices[k], twice.devices[k], req, t2);
  }

  /** The record holds every non-empty field of the request and is active. */
  predicate Carries(d: Device, req: Registration) {
    && (req.deviceName != "" ==> d.deviceName == req.deviceName)
    && (req.deviceModel != "" ==> d.deviceModel == req.deviceModel)
    && (req.osVersion != "" ==> d.osVersion == req.osVersion)
    && (req.appVersion != "" ==> d.appVersion == req.appVersion)
    && d.isActive
  }

  /** Refreshing a record with a request it already carries only moves
      `lastActive`. */
  lemma RefreshAgain(d: Device, d': Device, req: Registration, now: int)
    requires Carries(d, req) && Refreshed(d, d', req, now)
    ensures d' == d.(lastActive := now)
  {
  }

  // ------------------------------------------------------------- interval

  /** The `{ deviceId, screenshotInterval }` body of the interval reads. */
  datatype IntervalView = IntervalView(deviceId: string, screenshotInterval: int)

  /** `GET /:deviceId/interval`: the stored interval, with 10000 in place of
      a missing (falsy) one. */
  function GetInterval(st: Store, id: string): (r: Reply<IntervalView>)
    ensures !Registered(st.devices, id) ==> r == Failure(404, DeviceNotFound)
    ensures Registered(st.devices, id) ==>
      var d := st.devices[IndexOf(st.devices, id).value];
      && r.Success? && r.status == 200 && r.value.deviceId == id
      && r.value.screenshotInterval == (if d.screenshotInterval != 0 then d.screenshotInterval else DefaultInterval)
  {
    match IndexOf(st.devices, id)
    case None => Failure(404, DeviceNotFound)
    case Some(k) =>
      var ms := st.devices[k].screenshotInterval;
      Success(200, IntervalView(st.devices[k].deviceId, if ms != 0 then ms else DefaultInterval))
  }

  /** In a valid database the fallback never applies: every registered
      device reports its own stored interval, which lies within bounds. */
  lemma GetIntervalReportsStored(st: Store, i: nat)
    requires Valid(st)
    requires i < |st.devices|
    ensures GetInterval(st, st.devices[i].deviceId) == Success(200, IntervalView(st.devices[i].deviceId, st.devices[i].screenshotInterval))
    ensures IntervalInRange(GetInterval(st, st.devices[i].deviceId).value.screenshotInterval)
  {
    IndexOfUnique(st.devices, i);
  }

  /** The body check of `PUT /:deviceId/interval`: a missing, zero or
      non-numeric value is refused first, then a value outside
      [5000, 300000]; both ends are accepted. */
  function CheckInterval(v: Json): (r: Reply<int>)
    ensures r.Success? <==> v.Num? && IntervalInRange(v.n)
    ensures r.Success? ==> r == Success(200, v.n)
    ensures !(Truthy(v) && v.Num?) ==> r == Failure(400, IntervalRequired)
    ensures Truthy(v) && v.Num? && !IntervalInRange(v.n) ==> r == Failure(400, IntervalOutOfRange)
  {
    if !Truthy(v) || !v.Num? then Failure(400, IntervalRequired)
    else if v.n < MinInterval || v.n > MaxInterval then Failure(400, IntervalOutOfRange)
    else Success(200, v.n)
  }

  /** The `device` object of the interval update reply. */
  datatype IntervalUpdated = IntervalUpdated(deviceId: string, deviceName: string, screenshotInterval: int)

  /** `PUT /:deviceId/interval`. The body is checked before the device is
      looked up, so a bad value for an unknown device is a 400, not a 404.
      The range guarantee comes from this check alone: Mongoose does not run
      the schema's `min`/`max` validators on `findOneAndUpdate`. */
  function PutInterval(st: Store, id: string, body: Json, now: int): (r: Handled<Store, IntervalUpdated>)
    ensures r.reply.Failure? ==> r.store == st
    ensures CheckInterval(body).Failure? ==> r.reply == Failure(400, CheckInterval(body).error)
    ensures CheckInterval(body).Success? && !Registered(st.devices, id) ==> r.reply == Failure(404, DeviceNotFound)
    ensures r.reply.Success? <==> CheckInterval(body).Success? && Registered(st.devices, id)
    ensures r.reply.Success? ==>
      var k := IndexOf(st.devices, id).value;
      && r.reply.value == IntervalUpdated(id, st.devices[k].deviceName, body.n)
      && r.store == st.(devices := st.devices[k := st.devices[k].(screenshotInterval := body.n, lastActive := now)])
  {
    match CheckInterval(body)
    case Failure(code, msg) => Handled(st, Failure(code, msg))
    case Success(_, ms) =>
      match IndexOf(st.devices, id)
      case None => Handled(st, Failure(404, DeviceNotFound))
      case Some(k) =>
        var d := st.devices[k].(screenshotInterval := ms, lastActive := now);
        Handled(st.(devices := st.devices[k := d]), Success(200, IntervalUpdated(d.deviceId, d.deviceName, ms)))
  }

  /** An accepted update changes that device's interval to exactly the sent
      value and leaves every other device as it was; the database stays
      valid, and a later read returns the new value. */
  lemma PutIntervalEffect(st: Store, id: string, body: Json, now: int)
    requires Valid(st)
    ensures var r := PutInterval(st, id, body, now);
      && Valid(r.store)
      && (r.reply.Success? ==>
            && |r.store.devices| == |st.devices|
            && (forall i :: 0 <= i < |st.devices| && st.devices[i].deviceId != id ==> r.store.devices[i] == st.devices[i])
            && GetInterval(r.store, id) == Success(200, IntervalView(id, body.n)))
  {
    var r := PutInterval(st, id, body, now);
    if r.reply.Success? {
      var k := IndexOf(st.devices, id).value;
      IdsKept(st, r.store.devices);
      assert Valid(r.store);
      IndexOfUnique(r.store.devices, k);
      forall i | 0 <= i < |st.devices| && st.devices[i].deviceId != id
        ensures r.store.devices[i] == st.devices[i]
      {
        assert i != k;
      }
    }
  }

  // --------------------------------------------------------------- delete

  /** Records of devices other than `id`. */
  function OtherEvent(id: string): Event -> bool {
    (e: Event) => e.deviceId != id
  }

  function OtherShot(id: string): Shot -> bool {
    (s: Shot) => s.deviceId != id
  }

  /** `DELETE /:deviceId`: removes the device record, then every event and
      screenshot that names it. */
  function DeleteDevice(st: Store, id: string): (r: Handled<Store, string>)
    ensures !Registered(st.devices, id) ==> r.store == st && r.reply == Failure(404, DeviceNotFound)
    ensures Registered(st.devices, id) ==>
      var k := IndexOf(st.devices, id).value;
      && r.reply == Success(200, DeviceDeleted)
      && r.store.devices == st.devices[..k] + st.devices[k + 1..]
      && r.store.events == Listing.Filter(st.events, OtherEvent(id))
      && r.store.screenshots == Listing.Filter(st.screenshots, OtherShot(id))
      && r.store.nextShotId == st.nextShotId
  {
    match IndexOf(st.devices, id)
    case None => Handled(st, Failure(404, DeviceNotFound))
    case Some(k) =>
      var st' := Store(st.devices[..k] + st.devices[k + 1..],
                       Listing.Filter(st.events, OtherEvent(id)),
                       Listing.Filter(st.screenshots, OtherShot(id)),
                       st.nextShotId);
      Handled(st', Success(200, DeviceDeleted))
  }

  /** A record other than `id` that was registered stays registered once the
      record at `k`, the one carrying `id`, is removed. */
  lemma RemovalKeepsOthers(ds: seq<Device>, k: nat, id: string, other: string)
    requires k < |ds| && ds[k].deviceId == id
    requires other != id && Registered(ds, other)
    ensures Registered(ds[..k] + ds[k + 1..], other)
  {
    var j := IndexOf(ds, other).value;
    var ds' := ds[..k] + ds[k + 1..];
    if j < k {
      RegisteredAt(ds', j, other);
    } else {
      assert ds'[j - 1] == ds[j];
      RegisteredAt(ds', j - 1, other);
    }
  }

  /** Removing the record at `k` keeps the remaining ids unique and leaves
      none carrying the removed id. */
  lemma RemovalUnique(ds: seq<Device>, k: nat)
    requires UniqueIds(ds) && k < |ds|
    ensures UniqueIds(ds[..k] + ds[k + 1..])
    ensures !Registered(ds[..k] + ds[k + 1..], ds[k].deviceId)
  {
    var ds' := ds[..k] + ds[k + 1..];
    assert forall i :: 0 <= i < |ds'| ==> ds'[i] == (if i < k then ds[i] else ds[i + 1]);
  }

  /** After a delete, every remaining event and screenshot still belongs to a
      registered device. */
  lemma DeleteKeepsReferences(st: Store, id: string)
    requires Valid(st) && Registered(st.devices, id)
    ensures var st' := DeleteDevice(st, id).store;
      && (forall i :: 0 <= i < |st'.events| ==> Registered(st'.devices, st'.events[i].deviceId))
      && (forall i :: 0 <= i < |st'.screenshots| ==> Registered(st'.devices, st'.screenshots[i].deviceId))
  {
    DeleteKeepsEventReferences(st, id);
    DeleteKeepsShotReferences(st, id);
  }

  lemma DeleteKeepsEventReferences(st: Store, id: string)
    requires Valid(st) && Registered(st.devices, id)
    ensures var st' := DeleteDevice(st, id).store;
      forall i :: 0 <= i < |st'.events| ==> Registered(st'.devices, st'.events[i].deviceId)
  {
    var st' := DeleteDevice(st, id).store;
    var k := IndexOf(st.devices, id).value;
    forall i | 0 <= i < |st'.events|
      ensures Registered(st'.devices, st'.events[i].deviceId)
    {
      assert OtherEvent(id)(st'.events[i]);
      var m :| 0 <= m < |st.events| && st.events[m] == st'.events[i];
      RemovalKeepsOthers(st.devices, k, id, st'.events[i].deviceId);
    }
  }

  lemma DeleteKeepsShotReferences(st: Store, id: string)
    requires Valid(st) && Registered(st.devices, id)
    ensures var st' := DeleteDevice(st, id).store;
      forall i :: 0 <= i < |st'.screenshots| ==> Registered(st'.devices, st'.screenshots[i].deviceId)
  {
    var st' := DeleteDevice(st, id).store;
    var k := IndexOf(st.devices, id).value;
    forall i | 0 <= i < |st'.screenshots|
      ensures Registered(st'.devices, st'.screenshots[i].deviceId)
    {
      assert OtherShot(id)(st'.screenshots[i]);
      var m :| 0 <= m < |st.screenshots| && st.screenshots[m] == st'.screenshots[i];
      RemovalKeepsOthers(st.devices, k, id, st'.screenshots[i].deviceId);
    }
  }

  /** A delete keeps the database valid, leaves no device, event or
      screenshot with that id behind, and keeps every record of every other
      device. */
  lemma DeleteDeviceEffect(st: Store, id: string)
    requires Valid(st)
    ensures var st' := DeleteDevice(st, id).store;
      && Valid(st')
      && !Registered(st'.devices, id)
      && (forall i :: 0 <= i < |st'.events| ==> st'.events[i].deviceId != id)
      && (forall i :: 0 <= i < |st'.screenshots| ==> st'.screenshots[i].deviceId != id)
      && (forall i :: 0 <= i < |st.events| && st.events[i].deviceId != id ==> st.events[i] in st'.events)
      && (forall i :: 0 <= i < |st.screenshots| && st.screenshots[i].deviceId != id ==> st.screenshots[i] in st'.screenshots)
  {
    var st' := DeleteDevice(st, id).store;
    if Registered(st.devices, id) {
      var k := IndexOf(st.devices, id).value;
      RemovalUnique(st.devices, k);
      DeleteKeepsReferences(st, id);
      ShotIdsSurviveFilter(st.screenshots, st.nextShotId, OtherShot(id));
      assert forall i :: 0 <= i < |st'.events| ==> OtherEvent(id)(st'.events[i]);
      assert forall i :: 0 <= i < |st'.screenshots| ==> OtherShot(id)(st'.screenshots[i]);
      forall i | 0 <= i < |st.events| && st.events[i].deviceId != id
        ensures st.events[i] in st'.events
      {
        assert OtherEvent(id)(st.events[i]);
      }
      forall i | 0 <= i < |st.screenshots| && st.screenshots[i].deviceId != id
        ensures st.screenshots[i] in st'.screenshots
      {
        assert OtherShot(id)(st.screenshots[i]);
      }
    } else {
      forall i | 0 <= i < |st'.events|
        ensures st'.events[i].deviceId != id
      {
        assert Registered(st.devices, st.events[i].deviceId);
      }
      forall i | 0 <= i < |st'.screenshots|
        ensures st'.screenshots[i].deviceId != id
      {
        assert Registered(st.devices, st.screenshots[i].deviceId);
      }
    }
  }
}

=== FILE: event.dfy ===
/** The `Event` collection's record (backend/models/Event.js) and the
    six-value `eventType` enumeration. */
module EventModel {
  import opened Base

  /** The schema's `enum` for `eventType`. */
  datatype EventType = Unlock | Lock | ScreenOn | AppOpen | AppClose | Screenshot

  /** Every event type, in the order the schema lists them. */
  const AllTypes: seq<EventType> := [Unlock, Lock, ScreenOn, AppOpen, AppClose, Screenshot]

  /** The string stored in the document for each type. */
  function Name(t: EventType): string {
    match t
    case Unlock => "unlock"
    case Lock => "lock"
    case ScreenOn => "screen_on"
    case AppOpen => "app_open"
    case AppClose => "app_close"
    case Screenshot => "screenshot"
  }

  /** The enum validator: a string is a valid `eventType` exactly when it is
      the name of one of the six types. */
  function ParseEventType(s: string): (r: Option<EventType>)
    ensures forall t :: r == Some(t) <==> Name(t) == s
  {
    if s == "unlock" then Some(Unlock)
    else if s == "lock" then Some(Lock)
    else if s == "screen_on" then Some(ScreenOn)
    else if s == "app_open" then Some(AppOpen)
    else if s == "app_close" then Some(AppClose)
    else if s == "screenshot" then Some(Screenshot)
    else None
  }

  /** Distinct types are stored under distinct names, and each type occurs
      once in `AllTypes`. */
  lemma NamesDistinct(t: EventType, u: EventType)
    ensures Name(t) == Name(u) ==> t == u
    ensures t in AllTypes
  {
    assert ParseEventType(Name(t)) == Some(t);
  }

  /** Whatever a client may send as metadata, in either upload or event
      bodies. Keys the schemas do not declare are dropped by Mongoose's
      strict mode and are not represented. */
  datatype ClientMeta = ClientMeta(
    batteryLevel: Option<int>,
    isCharging: Option<bool>,
    networkType: Option<string>,
    screenWidth: Option<int>,
    screenHeight: Option<int>,
    fileSize: Option<int>,
    imageSize: Option<int>)

  /** A missing `metadata` object, or `{}`. */
  const NoMeta: ClientMeta := ClientMeta(None, None, None, None, None, None, None)

  /** The optional `metadata` sub-document of an event. */
  datatype EventMeta = EventMeta(batteryLevel: Option<int>, isCharging: Option<bool>, networkType: Option<string>)

  /** What of a client's metadata the event schema keeps. */
  function EventMetaOf(m: ClientMeta): EventMeta {
    EventMeta(m.batteryLevel, m.isCharging, m.networkType)
  }

  /** One stored event: `deviceId` and `eventType` are required, `timestamp`
      defaults to the time it is created. */
  datatype Event = Event(deviceId: string, eventType: EventType, timestamp: int, meta: EventMeta)

  /** `new Event({ deviceId, eventType, metadata })` for a type name that the
      validator may still refuse. */
  function CreateEvent(deviceId: string, eventType: string, meta: ClientMeta, now: int): (r: Option<Event>)
    ensures r.Some? <==> ParseEventType(eventType).Some?
    ensures r.Some? ==> r.value.deviceId == deviceId && Name(r.value.eventType) == eventType
    ensures r.Some? ==> r.value.timestamp == now && r.value.meta == EventMetaOf(meta)
  {
    match ParseEventType(eventType)
    case None => None
    case Some(t) => Some(Event(deviceId, t, now, EventMetaOf(meta)))
  }

  function EventTimestamp(e: Event): int {
    e.timestamp
  }
}

=== FILE: event_routes.dfy ===
/** The `/api/events` routes (backend/routes/events.js): appending an event
    for a registered device, the filtered listing, and the per-type
    statistics. */
module EventRoutes {
  import opened Base
  import opened DeviceModel
  import opened EventModel
  import opened Collector
  import opened Listing
  import DeviceRoutes

  /** The text of the 500 reply when the schema refuses the event type; the
      exact wording is Mongoose's and is not modelled. */
  const EventValidationFailed: string := "Event validation failed"

  /** Number of records the listing returns when the query gives no limit. */
  const DefaultEventLimit: nat := 100

  // --------------------------------------------------------------- append

  /** The body of `POST /monitoring`. */
  datatype EventPost = EventPost(deviceId: string, eventType: string, metadata: ClientMeta)

  /** `POST /monitoring`: stores one event for a registered device and marks
      the device as seen. The schema's enum validator refuses an unknown
      type when the event is saved, before the device is touched. */
  function AppendEvent(st: Store, req: EventPost, now: int): (r: Handled<Store, Event>)
    ensures !Registered(st.devices, req.deviceId) ==> r == Handled(st, Failure(404, DeviceRoutes.DeviceNotFound))
    ensures Registered(st.devices, req.deviceId) && ParseEventType(req.eventType).None? ==>
      r == Handled(st, Failure(500, EventValidationFailed))
    ensures r.reply.Success? <==> Registered(st.devices, req.deviceId) && ParseEventType(req.eventType).Some?
    ensures r.reply.Success? ==>
      var e := r.reply.value;
      var k := IndexOf(st.devices, req.deviceId).value;
      && r.reply.status == 201
      && e.deviceId == req.deviceId && Name(e.eventType) == req.eventType
      && e.timestamp == now && e.meta == EventMetaOf(req.metadata)
      && r.store == Store(st.devices[k := st.devices[k].(lastActive := now)], st.events + [e], st.screenshots, st.nextShotId)
  {
    match IndexOf(st.devices, req.deviceId)
    case None => Handled(st, Failure(404, DeviceRoutes.DeviceNotFound))
    case Some(k) =>
      match CreateEvent(req.deviceId, req.eventType, req.metadata, now)
      case None => Handled(st, Failure(500, EventValidationFailed))
      case Some(e) =>
        var ds := st.devices[k := st.devices[k].(lastActive := now)];
        Handled(Store(ds, st.events + [e], st.screenshots, st.nextShotId), Success(201, e))
  }

  /** Appending keeps the database valid and adds exactly one event. */
  lemma AppendEventPreservesValid(st: Store, req: EventPost, now: int)
    requires Valid(st)
    ensures Valid(AppendEvent(st, req, now).store)
    ensures |AppendEvent(st, req, now).store.events| == |st.events| + (if AppendEvent(st, req, now).reply.Success? then 1 else 0)
  {
    var r := AppendEvent(st, req, now);
    if r.reply.Success? {
      var k := IndexOf(st.devices, req.deviceId).value;
      DeviceRoutes.IdsKept(st, r.store.devices);
      DeviceRoutes.RegisteredAt(r.store.devices, k, req.deviceId);
      assert r.store.events[|st.events|] == r.reply.value;
    }
  }

  // -------------------------------------------------------------- listing

  /** The query string of `GET /`: empty strings filter nothing, absent
      limit and skip take their defaults. */
  datatype EventQuery = EventQuery(deviceId: string, eventType: string, range: Range, limit: Option<nat>, skip: Option<nat>)

  /** The Mongo query the route builds: equality on `deviceId` and
      `eventType` when given, and the inclusive date range. */
  predicate EventMatches(q: EventQuery, e: Event) {
    && FieldMatches(q.deviceId, e.deviceId)
    && FieldMatches(q.eventType, Name(e.eventType))
    && InRange(q.range, e.timestamp)
  }

  function EventFilter(q: EventQuery): Event -> bool {
    (e: Event) => EventMatches(q, e)
  }

  /** `GET /`: matching events, newest first, after skipping and limiting. */
  function ListEvents(st: Store, q: EventQuery): (r: Page<Event>)
    ensures r.limit == q.limit.GetOr(DefaultEventLimit) && r.skip == q.skip.GetOr(0)
    ensures forall i :: 0 <= i < |r.items| ==> EventMatches(q, r.items[i])
    ensures NewestFirst(r.items, EventTimestamp)
    ensures r.limit > 0 ==> |r.items| <= r.limit
    ensures r.total == |Filter(st.events, EventFilter(q))|
    ensures |r.items| == if r.skip >= r.total then 0 else if r.limit == 0 then r.total - r.skip else Min(r.limit, r.total - r.skip)
    ensures r.hasMore <==> r.skip + |r.items| < r.total
  {
    var p := EventFilter(q);
    var r := List(st.events, p, EventTimestamp, q.skip.GetOr(0), q.limit.GetOr(DefaultEventLimit));
    assert forall i :: 0 <= i < |r.items| ==> p(r.items[i]);
    r
  }

  /** The page holds the matching events ranked newest first, from position
      `skip` on: by `Window`'s contract, the record at position `i` of the
      page is the one at position `skip + i` of the ranking. */
  lemma ListEventsPage(st: Store, q: EventQuery)
    ensures var r := ListEvents(st, q);
      var ranked := SortNewestFirst(Filter(st.events, EventFilter(q)), EventTimestamp);
      r.items == Window(ranked, r.skip, r.limit)
  {
    var p, skip, limit := EventFilter(q), q.skip.GetOr(0), q.limit.GetOr(DefaultEventLimit);
    assert ListEvents(st, q) == List(st.events, p, EventTimestamp, skip, limit);
    ListIsWindow(st.events, p, EventTimestamp, skip, limit);
  }

  /** Asked for everything (`limit=0` and no skip), the listing holds every
      matching event. */
  lemma FullEventListing(st: Store, q: EventQuery)
    requires q.limit == Some(0) && q.skip == Some(0)
    ensures forall i :: 0 <= i < |st.events| && EventMatches(q, st.events[i]) ==> st.events[i] in ListEvents(st, q).items
  {
    FullListingHasAll(st.events, EventFilter(q), EventTimestamp);
    assert forall i :: 0 <= i < |st.events| && EventMatches(q, st.events[i]) ==> EventFilter(q)(st.events[i]);
  }

  // ---------------------------------------------------------------- stats

  /** One `{ _id: eventType, count }` group of the aggregation. */
  datatype StatEntry = StatEntry(eventType: EventType, count: nat)

  /** The body of `GET /stats`. */
  datatype StatsView = StatsView(stats: seq<StatEntry>, totalEvents: nat)

  /** The stats query: events at or after `since`, of one device when given. */
  function StatsFilter(deviceId: string, since: int): Event -> bool {
    (e: Event) => since <= e.timestamp && FieldMatches(deviceId, e.deviceId)
  }

  /** How many of `es` have type `t`. */
  function CountType(es: seq<Event>, t: EventType): nat
    decreases |es|
  {
    if es == [] then 0 else (if es[0].eventType == t then 1 else 0) + CountType(es[1..], t)
  }

  /** A type that occurs among `es` is counted at least once. */
  lemma {:induction false} CountTypePositive(es: seq<Event>, i: nat)
    requires i < |es|
    ensures CountType(es, es[i].eventType) > 0
    decreases |es|
  {
    if i > 0 {
      CountTypePositive(es[1..], i - 1);
    }
  }

  /** The sum of the counts of `types` over `es`. */
  function CountAll(es: seq<Event>, types: seq<EventType>): nat
    decreases |types|
  {
    if types == [] then 0 else CountType(es, types[0]) + CountAll(es, types[1..])
  }

  /** How many times `t` occurs in `types`. */
  function Occurrences(t: EventType, types: seq<EventType>): nat
    decreases |types|
  {
    if types == [] then 0 else (if types[0] == t then 1 else 0) + Occurrences(t, types[1..])
  }

  /** Taking the first event off `es` lowers the sum of counts over `types`
      by the number of times its type occurs in `types`. */
  lemma {:induction false} CountAllStep(es: seq<Event>, types: seq<EventType>)
    requires es != []
    ensures CountAll(es, types) == Occurrences(es[0].eventType, types) + CountAll(es[1..], types)
    decreases |types|
  {
    if types != [] {
      CountAllStep(es, types[1..]);
    }
  }

  /** Counting every type of the enumeration counts every event once. */
  lemma {:induction false} CountAllTypes(es: seq<Event>)
    ensures CountAll(es, AllTypes) == |es|
    decreases |es|
  {
    if es != [] {
      CountAllStep(es, AllTypes);
      CountAllTypes(es[1..]);
      assert Occurrences(es[0].eventType, AllTypes) == 1 by {
        match es[0].eventType
        case Unlock =>
        case Lock =>
        case ScreenOn =>
        case AppOpen =>
        case AppClose =>
        case Screenshot =>
      }
    }
  }

  function SumCounts(stats: seq<StatEntry>): nat
    decreases |stats|
  {
    if stats == [] then 0 else stats[0].count + SumCounts(stats[1..])
  }

  /** The groups for `types`, in that order, leaving out types no event has. */
  function Groups(es: seq<Event>, types: seq<EventType>): seq<StatEntry>
    decreases |types|
  {
    if types == [] then []
    else
      var c := CountType(es, types[0]);
      (if c > 0 then [StatEntry(types[0], c)] else []) + Groups(es, types[1..])
  }

  /** Each group is of one of `types` and carries that type's positive count. */
  lemma {:induction false} GroupsCount(es: seq<Event>, types: seq<EventType>)
    ensures forall i :: 0 <= i < |Groups(es, types)| ==>
      && Groups(es, types)[i].eventType in types
      && Groups(es, types)[i].count == CountType(es, Groups(es, types)[i].eventType) > 0
    decreases |types|
  {
    if types != [] {
      GroupsCount(es, types[1..]);
    }
  }

  /** Every type of `types` that some event has gets a group. */
  lemma {:induction false} GroupsComplete(es: seq<Event>, types: seq<EventType>, t: EventType)
    requires t in types && CountType(es, t) > 0
    ensures exists i :: 0 <= i < |Groups(es, types)| && Groups(es, types)[i].eventType == t
    decreases |types|
  {
    var g := Groups(es, types);
    if t == types[0] {
      assert g[0].eventType == t;
    } else {
      GroupsComplete(es, types[1..], t);
      var rest := Groups(es, types[1..]);
      var i :| 0 <= i < |rest| && rest[i].eventType == t;
      var head := if CountType(es, types[0]) > 0 then [StatEntry(types[0], CountType(es, types[0]))] else [];
      assert g == head + rest;
      assert g[|head| + i] == rest[i];
    }
  }

  /** Distinct types give distinct groups. */
  lemma {:induction false} GroupsDistinct(es: seq<Event>, types: seq<EventType>)
    requires forall i, j :: 0 <= i < j < |types| ==> types[i] != types[j]
    ensures forall i, j :: 0 <= i < j < |Groups(es, types)| ==> Groups(es, types)[i].eventType != Groups(es, types)[j].eventType
    decreases |types|
  {
    if types != [] {
      GroupsDistinct(es, types[1..]);
      GroupsCount(es, types[1..]);
      var rest := Groups(es, types[1..]);
      assert types[0] !in types[1..];
      assert forall i :: 0 <= i < |rest| ==> rest[i].eventType != types[0];
    }
  }

  /** The group counts add up to the sum of the type counts. */
  lemma {:induction false} GroupsSum(es: seq<Event>, types: seq<EventType>)
    ensures SumCounts(Groups(es, types)) == CountAll(es, types)
    decreases |types|
  {
    if types != [] {
      GroupsSum(es, types[1..]);
      var rest := Groups(es, types[1..]);
      var c := CountType(es, types[0]);
      if c > 0 {
        assert Groups(es, types) == [StatEntry(types[0], c)] + rest;
        assert Groups(es, types)[1..] == rest;
      } else {
        assert Groups(es, types) == rest;
      }
    }
  }

  /** Every event in `es` has its type listed among the groups over all
      types. */
  lemma GroupsCoverEvents(es: seq<Event>, e: Event)
    requires e in es
    ensures exists i :: 0 <= i < |Groups(es, AllTypes)| && Groups(es, AllTypes)[i].eventType == e.eventType
  {
    var m :| 0 <= m < |es| && es[m] == e;
    CountTypePositive(es, m);
    NamesDistinct(e.eventType, e.eventType);
    GroupsComplete(es, AllTypes, e.eventType);
  }

  /** The groups over all types of `es`: one per type present, with its
      count, no type twice, and counts adding up to the number of events. */
  lemma GroupsOfAllTypes(es: seq<Event>)
    ensures var g := Groups(es, AllTypes);
      && (forall i :: 0 <= i < |g| ==> g[i].count > 0 && g[i].count == CountType(es, g[i].eventType))
      && (forall i, j :: 0 <= i < j < |g| ==> g[i].eventType != g[j].eventType)
      && (forall e :: e in es ==> exists i :: 0 <= i < |g| && g[i].eventType == e.eventType)
      && SumCounts(g) == |es|
  {
    CountAllTypes(es);
    GroupsCount(es, AllTypes);
    GroupsDistinct(es, AllTypes);
    GroupsSum(es, AllTypes);
    forall e | e in es
      ensures exists i :: 0 <= i < |Groups(es, AllTypes)| && Groups(es, AllTypes)[i].eventType == e.eventType
    {
      GroupsCoverEvents(es, e);
    }
  }

  /** `GET /stats`: one group per event type present among the matched
      events, with its count, and the number of matched events. The start
      of the window (`days` before now, on the calendar) is the caller's
      `since`. */
  function Stats(st: Store, deviceId: string, since: int): (r: StatsView)
    ensures r.totalEvents == |Filter(st.events, StatsFilter(deviceId, since))|
    ensures forall i :: 0 <= i < |r.stats| ==>
      r.stats[i].count > 0 && r.stats[i].count == CountType(Filter(st.events, StatsFilter(deviceId, since)), r.stats[i].eventType)
    ensures forall i, j :: 0 <= i < j < |r.stats| ==> r.stats[i].eventType != r.stats[j].eventType
    ensures forall e :: e in Filter(st.events, StatsFilter(deviceId, since)) ==>
      exists i :: 0 <= i < |r.stats| && r.stats[i].eventType == e.eventType
    ensures SumCounts(r.stats) == r.totalEvents
  {
    var matched := Filter(st.events, StatsFilter(deviceId, since));
    GroupsOfAllTypes(matched);
    StatsView(Groups(matched, AllTypes), |matched|)
  }
}

=== FILE: js_number.dfy ===
/** The two JavaScript number conversions the dashboard's interval form
    relies on: `parseInt(text)` with no radix (section 19.2.5 of
    ECMAScript 2015, "parseInt (string, radix)") and `String(x)` for a
    number of milliseconds divided by 1000. Values are exact integers; the
    rounding of very long digit strings to a double is not modelled. */
module JsNumber {
  import opened Base

  /** StrWhiteSpaceChar: the white space and line terminators `parseInt`
      skips before the number. */
  predicate IsWhiteSpace(c: char) {
    || c == '\t' || c == '\n' || c == '\U{B}' || c == '\U{C}' || c == '\r' || c == ' '
    || c == '\U{A0}' || c == '\U{1680}' || ('\U{2000}' <= c <= '\U{200A}')
    || c == '\U{2028}' || c == '\U{2029}' || c == '\U{202F}' || c == '\U{205F}'
    || c == '\U{3000}' || c == '\U{FEFF}'
  }

  /** The value of a digit in any radix up to 36; 36 for a non-digit. */
  function DigitValue(c: char): nat {
    if '0' <= c <= '9' then c as nat - '0' as nat
    else if 'a' <= c <= 'z' then c as nat - 'a' as nat + 10
    else if 'A' <= c <= 'Z' then c as nat - 'A' as nat + 10
    else 36
  }

  predicate IsDigit(c: char, radix: nat) {
    DigitValue(c) < radix
  }

  function DigitChar(d: nat): (c: char)
    requires d < 10
    ensures IsDigit(c, 10) && DigitValue(c) == d
  {
    ('0' as nat + d) as char
  }

  /** `s` without its leading white space. */
  function TrimStart(s: string): (r: string)
    ensures |r| <= |s| && r == s[|s| - |r|..]
    ensures r == [] || !IsWhiteSpace(r[0])
    ensures forall i :: 0 <= i < |s| - |r| ==> IsWhiteSpace(s[i])
    decreases |s|
  {
    if s != [] && IsWhiteSpace(s[0]) then TrimStart(s[1..]) else s
  }

  /** The length of the run of radix digits at the start of `s`. */
  function DigitRun(s: string, radix: nat): (n: nat)
    ensures n <= |s|
    ensures forall i :: 0 <= i < n ==> IsDigit(s[i], radix)
    ensures n < |s| ==> !IsDigit(s[n], radix)
    decreases |s|
  {
    if s != [] && IsDigit(s[0], radix) then 1 + DigitRun(s[1..], radix) else 0
  }

  /** A run of digits ends at the first non-digit. */
  lemma {:induction false} DigitRunUnique(s: string, radix: nat, n: nat)
    requires n <= |s|
    requires forall i :: 0 <= i < n ==> IsDigit(s[i], radix)
    requires n < |s| ==> !IsDigit(s[n], radix)
    ensures DigitRun(s, radix) == n
    decreases n
  {
    if n > 0 {
      DigitRunUnique(s[1..], radix, n - 1);
    }
  }

  /** The value of a digit string, most significant digit first. */
  function DigitsValue(s: string, radix: nat): nat
    decreases |s|
  {
    if s == [] then 0 else DigitsValue(s[..|s| - 1], radix) * radix + DigitValue(s[|s| - 1])
  }

  /** The longest run of radix digits at the start of `w`, read as a
      number; no digit at all gives `None`. */
  function ReadDigits(w: string, radix: nat): (r: Option<int>)
    ensures r.None? <==> w == [] || !IsDigit(w[0], radix)
    ensures r.Some? ==> r.value >= 0
  {
    var n := DigitRun(w, radix);
    if n == 0 then None else Some(DigitsValue(w[..n], radix))
  }

  /** The unsigned part: radix 16 after `0x` or `0X`, radix 10 otherwise. */
  function ReadMagnitude(u: string): Option<int> {
    if |u| >= 2 && u[0] == '0' && (u[1] == 'x' || u[1] == 'X') then ReadDigits(u[2..], 16)
    else ReadDigits(u, 10)
  }

  /** One optional sign, then the magnitude. */
  function ReadSigned(t: string): (r: Option<int>)
    ensures t == [] ==> r == None
    ensures t != [] && t[0] != '-' && t[0] != '+' ==> r == ReadMagnitude(t)
  {
    if |t| > 0 && t[0] == '-' then
      match ReadMagnitude(t[1..])
      case None => None
      case Some(v) => Some(-v)
    else if |t| > 0 && t[0] == '+' then ReadMagnitude(t[1..])
    else ReadMagnitude(t)
  }

  /** `parseInt(s)`: skip white space, take one sign, switch to radix 16
      after `0x` or `0X`, then read the longest run of digits; no digits at
      all gives NaN (here `None`). */
  function ParseInt(s: string): (r: Option<int>)
    ensures TrimStart(s) == [] ==> r == None
  {
    ReadSigned(TrimStart(s))
  }

  /** `String(n)` for a natural number: its decimal digits, with no
      leading zero. */
  function NatToString(n: nat): (s: string)
    ensures |s| > 0
    ensures forall i :: 0 <= i < |s| ==> IsDigit(s[i], 10)
    ensures DigitsValue(s, 10) == n
    ensures s[0] == '0' ==> s == "0"
    decreases n
  {
    if n < 10 then [DigitChar(n)]
    else
      var s := NatToString(n / 10) + [DigitChar(n % 10)];
      assert s[..|s| - 1] == NatToString(n / 10);
      s
  }

  /** `parseInt` reads a decimal numeral back, ignoring whatever follows it
      that is not a digit (and not an `x` that would make `0` a hex
      prefix). */
  lemma ParseIntReadsNumeral(n: nat, rest: string)
    requires rest == [] || (!IsDigit(rest[0], 10) && rest[0] != 'x' && rest[0] != 'X')
    ensures ParseInt(NatToString(n) + rest) == Some(n)
  {
    var s := NatToString(n) + rest;
    assert s[0] == NatToString(n)[0];
    DigitIsNotSpace(s[0]);
    NumeralIsDecimal(n, rest);
    ReadNumeral(n, rest);
  }

  /** A decimal digit is neither white space nor a sign. */
  lemma DigitIsNotSpace(c: char)
    requires IsDigit(c, 10)
    ensures !IsWhiteSpace(c) && c != '-' && c != '+'
  {
    assert '0' <= c <= '9';
  }

  /** A numeral followed by anything but an `x` is read in radix 10. */
  lemma NumeralIsDecimal(n: nat, rest: string)
    requires rest == [] || (rest[0] != 'x' && rest[0] != 'X')
    ensures ReadMagnitude(NatToString(n) + rest) == ReadDigits(NatToString(n) + rest, 10)
  {
    var digits := NatToString(n);
    var s := digits + rest;
    if |s| >= 2 && s[0] == '0' {
      assert s[0] == digits[0];
      assert digits == "0";
      assert s[1] == rest[0];
    }
  }

  /** The digit run of a numeral followed by a non-digit is the numeral. */
  lemma ReadNumeral(n: nat, rest: string)
    requires rest == [] || !IsDigit(rest[0], 10)
    ensures ReadDigits(NatToString(n) + rest, 10) == Some(n)
  {
    var digits := NatToString(n);
    var s := digits + rest;
    DigitRunUnique(s, 10, |digits|);
    assert s[..|digits|] == digits;
  }

  /** White space in front of the text does not change what `parseInt`
      reads. */
  lemma ParseIntSkipsWhiteSpace(c: char, s: string)
    requires IsWhiteSpace(c)
    ensures ParseInt([c] + s) == ParseInt(s)
  {
    assert ([c] + s)[1..] == s;
    assert TrimStart([c] + s) == TrimStart(s);
  }

  /** Ten to the power `n`. */
  function Pow10(n: nat): nat {
    if n == 0 then 1 else 10 * Pow10(n - 1)
  }

  /** The digits after the decimal point of `f` thousandths, without
      trailing zeros, as `String` prints them: read as a decimal fraction
      they are worth exactly `f / 1000`. */
  function FractionDigits(f: nat): (s: string)
    requires 0 < f < 1000
    ensures 1 <= |s| <= 3 && s[|s| - 1] != '0'
    ensures forall i :: 0 <= i < |s| ==> IsDigit(s[i], 10)
    ensures DigitsValue(s, 10) * Pow10(3 - |s|) == f
  {
    var d1, d2, d3 := f / 100, (f / 10) % 10, f % 10;
    assert f == d1 * 100 + d2 * 10 + d3;
    var s3 := [DigitChar(d1), DigitChar(d2), DigitChar(d3)];
    DigitsValueOfThree(d1, d2, d3);
    if d3 != 0 then s3
    else if d2 != 0 then s3[..2]
    else s3[..1]
  }

  /** The value of a string of up to three decimal digits, read from each
      of its prefixes. */
  lemma DigitsValueOfThree(d1: nat, d2: nat, d3: nat)
    requires d1 < 10 && d2 < 10 && d3 < 10
    ensures var s := [DigitChar(d1), DigitChar(d2), DigitChar(d3)];
      && DigitsValue(s[..1], 10) == d1
      && DigitsValue(s[..2], 10) == d1 * 10 + d2
      && DigitsValue(s, 10) == d1 * 100 + d2 * 10 + d3
  {
    var s := [DigitChar(d1), DigitChar(d2), DigitChar(d3)];
    assert s[..1][..0] == [];
    assert s[..2][..1] == s[..1];
    assert s[..2] == s[..|s| - 1];
  }

  /** `String(ms / 1000)`: the number of seconds in `ms` milliseconds, with
      a decimal fraction only when `ms` is not a whole number of seconds.
      Exponent notation, which JavaScript uses from 10^21 on, is not
      modelled. */
  function SecondsText(ms: int): (s: string)
    ensures ms >= 0 && ms % 1000 == 0 ==> s == NatToString(ms / 1000)
    ensures ms >= 0 && ms % 1000 != 0 ==> s == NatToString(ms / 1000) + "." + FractionDigits(ms % 1000)
    ensures ms >= 0 ==> exists tail :: s == NatToString(ms / 1000) + tail && (tail == [] || tail[0] == '.')
  {
    var a: nat := if ms < 0 then -ms else ms;
    var tail := if a % 1000 == 0 then "" else "." + FractionDigits(a % 1000);
    var body := NatToString(a / 1000) + tail;
    if ms < 0 then "-" + body else body
  }

  /** An interval of 7500 ms is shown as seven and a half seconds. */
  lemma SecondsTextOfHalfSecond()
    ensures SecondsText(7500) == "7.5"
  {
    assert NatToString(7) == "7";
    assert FractionDigits(500) == "5";
  }

  /** Reading back the seconds text of a non-negative number of
      milliseconds gives the whole seconds: the fraction is dropped. */
  lemma ParseSecondsText(ms: nat)
    ensures ParseInt(SecondsText(ms)) == Some(ms / 1000)
  {
    var tail :| SecondsText(ms) == NatToString(ms / 1000) + tail && (tail == [] || tail[0] == '.');
    ParseIntReadsNumeral(ms / 1000, tail);
  }
}

=== FILE: listing.dfy ===
/** The query machinery shared by the screenshot and event listings: the
    filter a route builds from its query string, the newest-first sort,
    Mongo's skip-then-limit window and the pagination summary the routes
    return beside the records. */
module Listing {
  import opened Base

  /** An optional equality filter taken from the query string: the empty
      string (a missing or empty parameter) filters nothing. */
  predicate FieldMatches(filter: string, value: string) {
    filter == "" || filter == value
  }

  /** The inclusive `$gte` / `$lte` timestamp bounds; either may be absent. */
  datatype Range = Range(start: Option<int>, end: Option<int>)

  predicate InRange(r: Range, t: int) {
    && (r.start.Some? ==> r.start.value <= t)
    && (r.end.Some? ==> t <= r.end.value)
  }

  /** The records of `s` that satisfy `p`, in storage order. */
  function Filter<T>(s: seq<T>, p: T -> bool): (r: seq<T>)
    ensures |r| <= |s|
    ensures forall i :: 0 <= i < |r| ==> p(r[i])
    ensures forall i :: 0 <= i < |r| ==> r[i] in s
    ensures forall i :: 0 <= i < |s| && p(s[i]) ==> s[i] in r
    decreases |s|
  {
    if s == [] then []
    else
      assert s == [s[0]] + s[1..];
      (if p(s[0]) then [s[0]] else []) + Filter(s[1..], p)
  }

  /** A query keeps every copy of a record it selects and no copy of one it
      does not: identical records are counted as often as they are stored. */
  lemma {:induction false} FilterCount<T>(s: seq<T>, p: T -> bool, x: T)
    ensures multiset(Filter(s, p))[x] == if p(x) then multiset(s)[x] else 0
    decreases |s|
  {
    if s != [] {
      FilterCount(s[1..], p, x);
      assert s == [s[0]] + s[1..];
      assert multiset(s) == multiset{s[0]} + multiset(s[1..]);
    }
  }

  /** The complement of a record predicate. */
  function Not<T>(p: T -> bool): T -> bool {
    x => !p(x)
  }

  /** Every record is either selected by `p` or by its complement, never both:
      a bulk delete's count and what it keeps add up to what was stored. */
  lemma {:induction false} FilterPartition<T>(s: seq<T>, p: T -> bool)
    ensures |Filter(s, p)| + |Filter(s, Not(p))| == |s|
    decreases |s|
  {
    if s != [] {
      FilterPartition(s[1..], p);
    }
  }

  /** Timestamps never increase along `s`. */
  predicate NewestFirst<T>(s: seq<T>, ts: T -> int) {
    forall i, j :: 0 <= i < j < |s| ==> ts(s[i]) >= ts(s[j])
  }

  /** Places `x` in front of the first record that is not newer than it. */
  function Insert<T>(x: T, s: seq<T>, ts: T -> int): (r: seq<T>)
    requires NewestFirst(s, ts)
    ensures NewestFirst(r, ts)
    ensures multiset(r) == multiset(s) + multiset{x}
    ensures |r| == |s| + 1
    ensures r[0] == x || (|s| > 0 && r[0] == s[0])
    ensures forall i :: 0 <= i < |r| ==> r[i] == x || r[i] in s
    decreases |s|
  {
    if s == [] || ts(x) >= ts(s[0]) then [x] + s
    else
      assert s == [s[0]] + s[1..];
      [s[0]] + Insert(x, s[1..], ts)
  }

  /** `.sort({ timestamp: -1 })`. Records with equal timestamps keep their
      storage order; Mongo leaves that order unspecified. */
  function SortNewestFirst<T>(s: seq<T>, ts: T -> int): (r: seq<T>)
    ensures NewestFirst(r, ts)
    ensures multiset(r) == multiset(s)
    ensures |r| == |s|
    ensures forall i :: 0 <= i < |r| ==> r[i] in s
    decreases |s|
  {
    if s == [] then []
    else
      assert s == [s[0]] + s[1..];
      Insert(s[0], SortNewestFirst(s[1..], ts), ts)
  }

  /** `.skip(skip).limit(limit)` on an ordered result. Mongo applies the skip
      first whatever the call order, and a limit of 0 means no limit. */
  function Window<T>(s: seq<T>, skip: nat, limit: nat): (r: seq<T>)
    ensures limit > 0 ==> |r| <= limit
    ensures |r| == if skip >= |s| then 0 else if limit == 0 then |s| - skip else Min(limit, |s| - skip)
    ensures forall i :: 0 <= i < |r| ==> r[i] == s[skip + i]
  {
    if skip >= |s| then []
    else if limit == 0 || skip + limit >= |s| then s[skip..]
    else s[skip..skip + limit]
  }

  /** Two adjacent windows read the same records as one window spanning both:
      paging by `a` and then by `b` neither skips nor repeats a record. */
  lemma PagesTile<T>(s: seq<T>, skip: nat, a: nat, b: nat)
    requires a > 0 && b > 0
    ensures Window(s, skip, a) + Window(s, skip + a, b) == Window(s, skip, a + b)
  {
    var w1, w2, w := Window(s, skip, a), Window(s, skip + a, b), Window(s, skip, a + b);
    if skip + a < |s| {
      assert |w1| == a;
      forall i | 0 <= i < |w|
        ensures (w1 + w2)[i] == w[i]
      {
        if i >= a {
          assert (w1 + w2)[i] == w2[i - a] == s[skip + i];
        }
      }
    }
  }

  /** The first `k` pages of size `n`, read one after another. */
  function Pages<T>(s: seq<T>, n: nat, k: nat): seq<T>
    requires n > 0
  {
    if k == 0 then [] else Pages(s, n, k - 1) + Window(s, (k - 1) * n, n)
  }

  /** Reading pages 1..k is the same as reading the first `k * n` records:
      once the pages cover the whole result, every record has been seen
      exactly once and in order. */
  lemma {:induction false} PagesCover<T>(s: seq<T>, n: nat, k: nat)
    requires n > 0
    ensures Pages(s, n, k) == s[..Min(k * n, |s|)]
  {
    if k > 0 {
      PagesCover(s, n, k - 1);
      assert (k - 1) * n + n == k * n;
      PrefixThenWindow(s, (k - 1) * n, n);
    }
  }

  /** The records before position `a`, then a window of `n` from there, are
      the records before `a + n`. */
  lemma PrefixThenWindow<T>(s: seq<T>, a: nat, n: nat)
    requires n > 0
    ensures s[..Min(a, |s|)] + Window(s, a, n) == s[..Min(a + n, |s|)]
  {
    var prev, w := s[..Min(a, |s|)], Window(s, a, n);
    forall i | 0 <= i < |prev + w|
      ensures (prev + w)[i] == s[i]
    {
      if i >= |prev| {
        assert (prev + w)[i] == w[i - |prev|];
      }
    }
  }

  /** The body of a list reply: the records on this page and the `pagination`
      object sent beside them. */
  datatype Page<T> = Page(items: seq<T>, total: nat, limit: nat, skip: nat, hasMore: bool)

  /** A window of a newest-first sequence of records that satisfy `p` is
      itself newest first and holds only such records. */
  lemma WindowKeepsOrder<T>(s: seq<T>, p: T -> bool, ts: T -> int, skip: nat, limit: nat)
    requires NewestFirst(s, ts)
    requires forall i :: 0 <= i < |s| ==> p(s[i])
    ensures NewestFirst(Window(s, skip, limit), ts)
    ensures forall i :: 0 <= i < |Window(s, skip, limit)| ==> p(Window(s, skip, limit)[i])
  {
    var w := Window(s, skip, limit);
    forall i, j | 0 <= i < j < |w|
      ensures ts(w[i]) >= ts(w[j])
    {
      assert w[i] == s[skip + i] && w[j] == s[skip + j];
    }
  }

  /** A filtered, newest-first, skipped and limited listing with its
      `countDocuments` total and `hasMore` flag. */
  function List<T>(s: seq<T>, p: T -> bool, ts: T -> int, skip: nat, limit: nat): (r: Page<T>)
    ensures r.total == |Filter(s, p)|
    ensures r.skip == skip && r.limit == limit
    ensures forall i :: 0 <= i < |r.items| ==> p(r.items[i])
    ensures NewestFirst(r.items, ts)
    ensures limit > 0 ==> |r.items| <= limit
    ensures |r.items| == if skip >= r.total then 0 else if limit == 0 then r.total - skip else Min(limit, r.total - skip)
    ensures skip == 0 && limit == 0 ==> multiset(r.items) == multiset(Filter(s, p))
    ensures r.hasMore <==> skip + |r.items| < r.total
  {
    var matched := Filter(s, p);
    var sorted := SortNewestFirst(matched, ts);
    SortKeepsMatch(s, p, ts);
    WindowKeepsOrder(sorted, p, ts, skip, limit);
    var items := Window(sorted, skip, limit);
    assert |sorted| == |matched|;
    assert skip == 0 && limit == 0 ==> items == sorted;
    Page(items, |sorted|, limit, skip, |sorted| > skip + |items|)
  }

  /** Which records a listing returns: the matches ranked newest first,
      from position `skip` on, at most `limit` of them (all when `limit` is
      0). */
  lemma ListIsWindow<T>(s: seq<T>, p: T -> bool, ts: T -> int, skip: nat, limit: nat)
    ensures var ranked := SortNewestFirst(Filter(s, p), ts);
      && List(s, p, ts, skip, limit).items == Window(ranked, skip, limit)
      && forall i :: 0 <= i < |List(s, p, ts, skip, limit).items| ==>
           skip + i < |ranked| && List(s, p, ts, skip, limit).items[i] == ranked[skip + i]
  {
  }

  /** Sorting the matching records keeps them matching. */
  lemma SortKeepsMatch<T>(s: seq<T>, p: T -> bool, ts: T -> int)
    ensures var sorted := SortNewestFirst(Filter(s, p), ts);
      forall i :: 0 <= i < |sorted| ==> p(sorted[i])
  {
    var matched := Filter(s, p);
    var sorted := SortNewestFirst(matched, ts);
    forall i | 0 <= i < |sorted|
      ensures p(sorted[i])
    {
      assert sorted[i] in matched;
    }
  }

  /** The unlimited listing from the start holds every matching record. */
  lemma FullListingHasAll<T>(s: seq<T>, p: T -> bool, ts: T -> int)
    ensures forall i :: 0 <= i < |s| && p(s[i]) ==> s[i] in List(s, p, ts, 0, 0).items
  {
    var items := List(s, p, ts, 0, 0).items;
    forall i | 0 <= i < |s| && p(s[i])
      ensures s[i] in items
    {
      assert s[i] in multiset(Filter(s, p));
    }
  }

  /** With a positive limit, `hasMore` is set exactly when the next page of
      the same size would not be empty; a page announcing more is full. */
  lemma HasMoreIffNextPageNonEmpty<T>(s: seq<T>, p: T -> bool, ts: T -> int, skip: nat, limit: nat)
    requires limit > 0
    ensures List(s, p, ts, skip, limit).hasMore <==> |List(s, p, ts, skip + limit, limit).items| > 0
    ensures List(s, p, ts, skip, limit).hasMore ==> |List(s, p, ts, skip, limit).items| == limit
  {
  }
}

=== FILE: screenshot.dfy ===
/** The `Screenshot` collection's record (backend/models/Screenshot.js). */
module ScreenshotModel {
  import opened Base
  import opened EventModel

  /** The optional `metadata` sub-document of a screenshot. */
  datatype ShotMeta = ShotMeta(screenWidth: Option<int>, screenHeight: Option<int>, fileSize: Option<int>, imageSize: Option<int>)

  /** One stored screenshot. `id` stands for the document's `_id`;
      `imagePath` is the empty string when the record has none. */
  datatype Shot = Shot(id: nat, deviceId: string, imageBase64: string, imagePath: string, timestamp: int, meta: ShotMeta)

  /** The metadata the upload route stores: `{ imageSize: imageBase64.length,
      ...metadata }`, so a client-supplied `imageSize` wins over the measured
      length, and the other keys come from the client alone. */
  function ShotMetaOf(imageBase64: string, m: ClientMeta): (r: ShotMeta)
    ensures m.imageSize.Some? ==> r.imageSize == m.imageSize
    ensures m.imageSize.None? ==> r.imageSize == Some(|imageBase64|)
    ensures r.screenWidth == m.screenWidth && r.screenHeight == m.screenHeight && r.fileSize == m.fileSize
  {
    ShotMeta(m.screenWidth, m.screenHeight, m.fileSize, Some(m.imageSize.GetOr(|imageBase64|)))
  }

  function ShotTimestamp(s: Shot): int {
    s.timestamp
  }
}

=== FILE: screenshot_routes.dfy ===
/** The `/api/screenshots` routes (backend/routes/screenshots.js): upload,
    the filtered listing, bulk delete by the same filter, reading one record
    or its image, and deleting one record. */
module ScreenshotRoutes {
  import opened Base
  import opened DeviceModel
  import opened EventModel
  import opened ScreenshotModel
  import opened Collector
  import opened Listing
  import DeviceRoutes

  const ImageRequired: string := "No image data provided"
  const DeviceNotRegistered: string := "Device not registered"
  const ShotNotFound: string := "Screenshot not found"
  const ImageNotFound: string := "Image data not found"
  const ShotDeleted: string := "Screenshot deleted successfully"
  const ShotsDeleted: string := "Screenshots deleted successfully"

  /** Number of records the listing returns when the query gives no limit. */
  const DefaultShotLimit: nat := 50

  // --------------------------------------------------------------- upload

  /** The body of `POST /upload-monitoring`. */
  datatype Upload = Upload(deviceId: string, imageBase64: string, metadata: ClientMeta)

  /** The `screenshot` object of the upload reply. */
  datatype Uploaded = Uploaded(id: nat, timestamp: int)

  /** The screenshot record an accepted upload stores. */
  function ShotOf(req: Upload, id: nat, now: int): Shot {
    Shot(id, req.deviceId, req.imageBase64, "", now, ShotMetaOf(req.imageBase64, req.metadata))
  }

  /** `POST /upload-monitoring`: the id is checked, then the image, then the
      device; an accepted upload stores one `screenshot` event, then the
      screenshot, then marks the device as seen. */
  function UploadShot(st: Store, req: Upload, now: int): (r: Handled<Store, Uploaded>)
    ensures req.deviceId == "" ==> r == Handled(st, Failure(400, DeviceRoutes.DeviceIdRequired))
    ensures req.deviceId != "" && req.imageBase64 == "" ==> r == Handled(st, Failure(400, ImageRequired))
    ensures req.deviceId != "" && req.imageBase64 != "" && !Registered(st.devices, req.deviceId) ==>
      r == Handled(st, Failure(404, DeviceNotRegistered))
    ensures r.reply.Success? <==> req.deviceId != "" && req.imageBase64 != "" && Registered(st.devices, req.deviceId)
    ensures r.reply.Success? ==>
      var k := IndexOf(st.devices, req.deviceId).value;
      && r.reply == Success(201, Uploaded(st.nextShotId, now))
      && r.store.events == st.events + [Event(req.deviceId, Screenshot, now, EventMetaOf(req.metadata))]
      && r.store.screenshots == st.screenshots + [ShotOf(req, st.nextShotId, now)]
      && r.store.nextShotId == st.nextShotId + 1
      && r.store.devices == st.devices[k := st.devices[k].(lastActive := now)]
  {
    if req.deviceId == "" then Handled(st, Failure(400, DeviceRoutes.DeviceIdRequired))
    else if req.imageBase64 == "" then Handled(st, Failure(400, ImageRequired))
    else
      match IndexOf(st.devices, req.deviceId)
      case None => Handled(st, Failure(404, DeviceNotRegistered))
      case Some(k) =>
        var e := Event(req.deviceId, Screenshot, now, EventMetaOf(req.metadata));
        var shot := ShotOf(req, st.nextShotId, now);
        var st' := Store(st.devices[k := st.devices[k].(lastActive := now)],
                         st.events + [e], st.screenshots + [shot], st.nextShotId + 1);
        Handled(st', Success(201, Uploaded(shot.id, shot.timestamp)))
  }

  /** An upload keeps the database valid; an accepted one adds exactly one
      event and one screenshot, both for the uploading device, and the new
      screenshot's id is not used by any earlier one. */
  lemma UploadPreservesValid(st: Store, req: Upload, now: int)
    requires Valid(st)
    ensures var r := UploadShot(st, req, now);
      && Valid(r.store)
      && (r.reply.Success? ==>
            && |r.store.events| == |st.events| + 1
            && |r.store.screenshots| == |st.screenshots| + 1
            && r.store.events[|st.events|].eventType == Screenshot
            && r.store.screenshots[|st.screenshots|].deviceId == req.deviceId
            && forall i :: 0 <= i < |st.screenshots| ==> st.screenshots[i].id != r.reply.value.id)
  {
    var r := UploadShot(st, req, now);
    if r.reply.Success? {
      var k := IndexOf(st.devices, req.deviceId).value;
      DeviceRoutes.IdsKept(st, r.store.devices);
      DeviceRoutes.RegisteredAt(r.store.devices, k, req.deviceId);
      assert r.store.events[|st.events|].deviceId == req.deviceId;
      assert r.store.screenshots[|st.screenshots|] == ShotOf(req, st.nextShotId, now);
    }
  }

  // -------------------------------------------------------------- listing

  /** The filter shared by the listing and the bulk delete. */
  datatype ShotCriteria = ShotCriteria(deviceId: string, range: Range)

  predicate ShotMatches(c: ShotCriteria, s: Shot) {
    FieldMatches(c.deviceId, s.deviceId) && InRange(c.range, s.timestamp)
  }

  function ShotFilter(c: ShotCriteria): Shot -> bool {
    (s: Shot) => ShotMatches(c, s)
  }

  /** The query string of `GET /`. */
  datatype ShotQuery = ShotQuery(criteria: ShotCriteria, limit: Option<nat>, skip: Option<nat>)

  /** `GET /`: matching screenshots, newest first, after skipping and
      limiting. */
  function ListShots(st: Store, q: ShotQuery): (r: Page<Shot>)
    ensures r.limit == q.limit.GetOr(DefaultShotLimit) && r.skip == q.skip.GetOr(0)
    ensures forall i :: 0 <= i < |r.items| ==> ShotMatches(q.criteria, r.items[i])
    ensures NewestFirst(r.items, ShotTimestamp)
    ensures r.limit > 0 ==> |r.items| <= r.limit
    ensures r.total == |Filter(st.screenshots, ShotFilter(q.criteria))|
    ensures |r.items| == if r.skip >= r.total then 0 else if r.limit == 0 then r.total - r.skip else Min(r.limit, r.total - r.skip)
    ensures r.hasMore <==> r.skip + |r.items| < r.total
  {
    var p := ShotFilter(q.criteria);
    var r := List(st.screenshots, p, ShotTimestamp, q.skip.GetOr(0), q.limit.GetOr(DefaultShotLimit));
    assert forall i :: 0 <= i < |r.items| ==> p(r.items[i]);
    r
  }

  /** The page holds the matching screenshots ranked newest first, from position
      `skip` on: by `Window`'s contract, the record at position `i` of the
      page is the one at position `skip + i` of the ranking. */
  lemma ListShotsPage(st: Store, q: ShotQuery)
    ensures var r := ListShots(st, q);
      var ranked := SortNewestFirst(Filter(st.screenshots, ShotFilter(q.criteria)), ShotTimestamp);
      r.items == Window(ranked, r.skip, r.limit)
  {
    var p, skip, limit := ShotFilter(q.criteria), q.skip.GetOr(0), q.limit.GetOr(DefaultShotLimit);
    assert ListShots(st, q) == List(st.screenshots, p, ShotTimestamp, skip, limit);
    ListIsWindow(st.screenshots, p, ShotTimestamp, skip, limit);
  }

  /** Asked for everything (`limit=0` and no skip), the listing holds every
      matching screenshot. */
  lemma FullShotListing(st: Store, c: ShotCriteria)
    ensures var r := ListShots(st, ShotQuery(c, Some(0), Some(0)));
      forall i :: 0 <= i < |st.screenshots| && ShotMatches(c, st.screenshots[i]) ==> st.screenshots[i] in r.items
  {
    FullListingHasAll(st.screenshots, ShotFilter(c), ShotTimestamp);
    assert forall i :: 0 <= i < |st.screenshots| && ShotMatches(c, st.screenshots[i]) ==> ShotFilter(c)(st.screenshots[i]);
  }

  // ---------------------------------------------------------- bulk delete

  /** The body of the bulk delete reply. */
  datatype BulkDeleted = BulkDeleted(message: string, deletedCount: nat)

  /** `DELETE /bulk-delete`: removes every screenshot the listing with the
      same filter would count, and reports how many. Files on disk named by
      `imagePath` are also unlinked; the file system is not modelled. */
  function BulkDelete(st: Store, c: ShotCriteria): (r: Handled<Store, BulkDeleted>)
    ensures r.reply.Success? && r.reply.status == 200 && r.reply.value.message == ShotsDeleted
    ensures r.reply.value.deletedCount == |Filter(st.screenshots, ShotFilter(c))|
    ensures r.store.screenshots == Filter(st.screenshots, Not(ShotFilter(c)))
    ensures r.store.devices == st.devices && r.store.events == st.events && r.store.nextShotId == st.nextShotId
  {
    var kept := Filter(st.screenshots, Not(ShotFilter(c)));
    Handled(st.(screenshots := kept), Success(200, BulkDeleted(ShotsDeleted, |Filter(st.screenshots, ShotFilter(c))|)))
  }

  /** A bulk delete keeps the database valid; what it removes and what it
      keeps add up to what was stored; nothing that matches is left, so a
      listing with the same filter then counts zero; and every record that
      did not match is still there. */
  lemma BulkDeleteEffect(st: Store, c: ShotCriteria, limit: Option<nat>, skip: Option<nat>)
    requires Valid(st)
    ensures var r := BulkDelete(st, c);
      && Valid(r.store)
      && r.reply.value.deletedCount + |r.store.screenshots| == |st.screenshots|
      && ListShots(r.store, ShotQuery(c, limit, skip)).total == 0
      && forall i :: 0 <= i < |st.screenshots| && !ShotMatches(c, st.screenshots[i]) ==> st.screenshots[i] in r.store.screenshots
  {
    var r := BulkDelete(st, c);
    var kept := r.store.screenshots;
    FilterPartition(st.screenshots, ShotFilter(c));
    BulkDeleteKeepsValid(st, c);
    assert forall i :: 0 <= i < |kept| ==> !ShotMatches(c, kept[i]) by {
      forall i | 0 <= i < |kept|
        ensures !ShotMatches(c, kept[i])
      {
        assert Not(ShotFilter(c))(kept[i]);
      }
    }
    NothingMatches(kept, ShotFilter(c));
    forall i | 0 <= i < |st.screenshots| && !ShotMatches(c, st.screenshots[i])
      ensures st.screenshots[i] in kept
    {
      assert Not(ShotFilter(c))(st.screenshots[i]);
    }
  }

  lemma BulkDeleteKeepsValid(st: Store, c: ShotCriteria)
    requires Valid(st)
    ensures Valid(BulkDelete(st, c).store)
  {
    var kept := BulkDelete(st, c).store.screenshots;
    ShotIdsSurviveFilter(st.screenshots, st.nextShotId, Not(ShotFilter(c)));
    forall i | 0 <= i < |kept|
      ensures Registered(st.devices, kept[i].deviceId)
    {
      var m :| 0 <= m < |st.screenshots| && st.screenshots[m] == kept[i];
    }
  }

  /** A filter over records none of which satisfies it selects nothing. */
  lemma {:induction false} NothingMatches(s: seq<Shot>, p: Shot -> bool)
    requires forall i :: 0 <= i < |s| ==> !p(s[i])
    ensures Filter(s, p) == []
    decreases |s|
  {
    if s != [] {
      NothingMatches(s[1..], p);
    }
  }

  // ----------------------------------------------------------- by id

  /** `findById(id)`: the position of the screenshot with that id. */
  function ShotIndex(shots: seq<Shot>, id: nat): (r: Option<nat>)
    ensures r.Some? ==> r.value < |shots| && shots[r.value].id == id
    ensures r.None? <==> forall i :: 0 <= i < |shots| ==> shots[i].id != id
    decreases |shots|
  {
    if shots == [] then None
    else if shots[0].id == id then Some(0)
    else
      match ShotIndex(shots[1..], id)
      case None => None
      case Some(k) => Some(k + 1)
  }

  /** `GET /:id`: the stored record. */
  function GetShot(st: Store, id: nat): (r: Reply<Shot>)
    ensures r.Success? <==> exists i :: 0 <= i < |st.screenshots| && st.screenshots[i].id == id
    ensures r.Success? ==> r.status == 200 && r.value in st.screenshots && r.value.id == id
    ensures r.Failure? ==> r == Failure(404, ShotNotFound)
  {
    match ShotIndex(st.screenshots, id)
    case None => Failure(404, ShotNotFound)
    case Some(k) => Success(200, st.screenshots[k])
  }

  /** The image route's regular expression `^data:image\/\w+;base64,`:
      a word character is an ASCII letter, digit or underscore. */
  predicate WordChar(c: char) {
    ('a' <= c <= 'z') || ('A' <= c <= 'Z') || ('0' <= c <= '9') || c == '_'
  }

  const DataImage: string := "data:image/"
  const Base64Marker: string := ";base64,"

  /** `p` is a whole data-URL header: `data:image/`, at least one word
      character, then `;base64,`. */
  predicate IsDataUrlPrefix(p: string) {
    && |p| > |DataImage| + |Base64Marker|
    && p[..|DataImage|] == DataImage
    && p[|p| - |Base64Marker|..] == Base64Marker
    && forall i :: |DataImage| <= i < |p| - |Base64Marker| ==> WordChar(p[i])
  }

  /** The end of the run of word characters starting at `i`. */
  function WordEnd(s: string, i: nat): (j: nat)
    requires i <= |s|
    ensures i <= j <= |s|
    ensures forall k :: i <= k < j ==> WordChar(s[k])
    ensures j < |s| ==> !WordChar(s[j])
    decreases |s| - i
  {
    if i < |s| && WordChar(s[i]) then WordEnd(s, i + 1) else i
  }

  /** A run of word characters ends at the only place it can. */
  lemma {:induction false} WordEndUnique(s: string, i: nat, m: nat)
    requires i <= m <= |s|
    requires forall k :: i <= k < m ==> WordChar(s[k])
    requires m < |s| ==> !WordChar(s[m])
    ensures WordEnd(s, i) == m
    decreases |s| - i
  {
    if i < m {
      WordEndUnique(s, i + 1, m);
    }
  }

  /** The `replace` the image route applies before decoding: a leading
      data-URL header is removed; anything else is left alone. */
  function StripDataUrlPrefix(s: string): string {
    var n := |DataImage|;
    if |s| < n || s[..n] != DataImage then s
    else
      var j := WordEnd(s, n);
      if j > n && j + |Base64Marker| <= |s| && s[j..j + |Base64Marker|] == Base64Marker
      then s[j + |Base64Marker|..] else s
  }

  /** A string that starts with a data-URL header loses exactly that
      header, and a string that does not start with one comes back
      unchanged. */
  lemma StripDataUrlPrefixSpec(s: string)
    ensures forall k :: 0 <= k <= |s| && IsDataUrlPrefix(s[..k]) ==> StripDataUrlPrefix(s) == s[k..]
    ensures (forall k :: 0 <= k <= |s| ==> !IsDataUrlPrefix(s[..k])) ==> StripDataUrlPrefix(s) == s
  {
    forall k | 0 <= k <= |s| && IsDataUrlPrefix(s[..k])
      ensures StripDataUrlPrefix(s) == s[k..]
    {
      StripRemovesHeader(s, k);
    }
    StripFindsHeader(s);
  }

  /** The header the regular expression matches is the one that is there. */
  lemma StripRemovesHeader(s: string, k: nat)
    requires k <= |s| && IsDataUrlPrefix(s[..k])
    ensures StripDataUrlPrefix(s) == s[k..]
  {
    var n := |DataImage|;
    var p := s[..k];
    var m := k - |Base64Marker|;
    assert s[..n] == p[..n];
    assert p[m] == ';';
    assert forall q :: n <= q < m ==> s[q] == p[q];
    WordEndUnique(s, n, m);
    assert s[m..m + |Base64Marker|] == p[m..];
  }

  /** Whenever something is removed, it is a whole header. */
  lemma StripFindsHeader(s: string)
    ensures StripDataUrlPrefix(s) != s ==>
      var j := WordEnd(s, |DataImage|);
      IsDataUrlPrefix(s[..j + |Base64Marker|]) && StripDataUrlPrefix(s) == s[j + |Base64Marker|..]
  {
    var n := |DataImage|;
    if StripDataUrlPrefix(s) != s {
      var j := WordEnd(s, n);
      var p := s[..j + |Base64Marker|];
      assert p[..n] == s[..n];
      assert p[|p| - |Base64Marker|..] == s[j..j + |Base64Marker|];
      assert forall q :: n <= q < |p| - |Base64Marker| ==> p[q] == s[q];
    }
  }

  /** What the image route sends: the stored base64 text with any data-URL
      header removed (the decoding to bytes is not modelled), or the file
      at `imagePath`. */
  datatype ImageBody = Inline(base64: string) | FromFile(path: string)

  /** `GET /:id/image`. `files` is the set of paths that exist on disk. */
  function GetImage(st: Store, id: nat, files: set<string>): (r: Reply<ImageBody>)
    ensures GetShot(st, id).Failure? ==> r == Failure(404, ShotNotFound)
    ensures GetShot(st, id).Success? ==>
      var s := GetShot(st, id).value;
      && (s.imageBase64 != "" ==> r == Success(200, Inline(StripDataUrlPrefix(s.imageBase64))))
      && (s.imageBase64 == "" && s.imagePath != "" && s.imagePath in files ==> r == Success(200, FromFile(s.imagePath)))
      && (s.imageBase64 == "" && (s.imagePath == "" || s.imagePath !in files) ==> r == Failure(404, ImageNotFound))
  {
    match GetShot(st, id)
    case Failure(code, msg) => Failure(code, msg)
    case Success(_, s) =>
      if s.imageBase64 != "" then Success(200, Inline(StripDataUrlPrefix(s.imageBase64)))
      else if s.imagePath != "" && s.imagePath in files then Success(200, FromFile(s.imagePath))
      else Failure(404, ImageNotFound)
  }

  /** `DELETE /:id`: removes that one record. */
  function DeleteShot(st: Store, id: nat): (r: Handled<Store, string>)
    ensures ShotIndex(st.screenshots, id).None? ==> r == Handled(st, Failure(404, ShotNotFound))
    ensures ShotIndex(st.screenshots, id).Some? ==>
      var k := ShotIndex(st.screenshots, id).value;
      && r.reply == Success(200, ShotDeleted)
      && r.store == st.(screenshots := st.screenshots[..k] + st.screenshots[k + 1..])
  {
    match ShotIndex(st.screenshots, id)
    case None => Handled(st, Failure(404, ShotNotFound))
    case Some(k) => Handled(st.(screenshots := st.screenshots[..k] + st.screenshots[k + 1..]), Success(200, ShotDeleted))
  }

  function IdsOf(s: seq<Shot>): set<nat> {
    set i | 0 <= i < |s| :: s[i].id
  }

  /** Removing the screenshot at `k` keeps the others' ids fresh and
      distinct and leaves none with the removed id. */
  lemma RemoveShotIds(s: seq<Shot>, next: nat, k: nat)
    requires ShotIdsFresh(s, next) && k < |s|
    ensures ShotIdsFresh(s[..k] + s[k + 1..], next)
    ensures s[k].id !in IdsOf(s[..k] + s[k + 1..])
    ensures forall i :: 0 <= i < |s| && i != k ==> s[i] in s[..k] + s[k + 1..]
  {
    var s' := s[..k] + s[k + 1..];
    assert forall i :: 0 <= i < |s'| ==> s'[i] == (if i < k then s[i] else s[i + 1]);
    forall i | 0 <= i < |s| && i != k
      ensures s[i] in s'
    {
      if i < k {
        assert s'[i] == s[i];
      } else {
        assert s'[i - 1] == s[i];
      }
    }
  }

  /** Deleting one screenshot keeps the database valid, leaves no record with
      that id, and keeps every other screenshot. */
  lemma DeleteShotEffect(st: Store, id: nat)
    requires Valid(st)
    ensures var st' := DeleteShot(st, id).store;
      && Valid(st')
      && GetShot(st', id).Failure?
      && |st'.screenshots| == |st.screenshots| - (if DeleteShot(st, id).reply.Success? then 1 else 0)
      && forall i :: 0 <= i < |st.screenshots| && st.screenshots[i].id != id ==> st.screenshots[i] in st'.screenshots
  {
    var st' := DeleteShot(st, id).store;
    if ShotIndex(st.screenshots, id).Some? {
      var k := ShotIndex(st.screenshots, id).value;
      RemoveShotIds(st.screenshots, st.nextShotId, k);
      forall i | 0 <= i < |st'.screenshots|
        ensures Registered(st'.devices, st'.screenshots[i].deviceId)
      {
        var m :| 0 <= m < |st.screenshots| && st.screenshots[m] == st'.screenshots[i];
      }
    }
  }
}
